=== FILE: README.md ===
# Operator console state: a Dafny model

This project models the client-side state of a live-chat operator console.
It covers five parts:

- **The admin store.** A reducer over the conversation summary list, the optional focused conversation with its transcript, the list of online end-user sessions, and the per-session typing flags.
- **The socket layer.** Each inbound socket event becomes store actions (`Handle`, folded over a stream by `HandleAll`). Each operator command is forwarded only while the socket is connected (`Command`).
- **The auth store.** A login/logout state machine.
- **View derivations and validators.** The active-chats panel, the chat and user search filters, the send guard, the user-agent classifiers, the total-chats counter, the password-change validator and the settings toggles.
- **JavaScript string primitives.** The `toLowerCase`, `includes` and `trim` behaviour these views rely on (module `Text`), plus generic order-preserving filter and de-duplication (module `Seqs`).

All state is immutable: datatypes, `seq` and `map`, with one pure function per transition.

## Behaviour worth knowing

- **`addMessage` updates one projection.** On a focused match it appends to the transcript and returns early, leaving the summary list untouched (src/store/adminStore.ts:57-64). Otherwise it bumps `messageCount`, `lastMessage` and `updatedAt` in the list (src/store/adminStore.ts:67-79). `AdminStore.AddMessage` reproduces both branches. `AdminSocket.FocusedMessageSkipsList`: with the chat focused, an AI message grows the transcript while the list count stays 2.
- **No de-duplication by message id.** Every delivered message is applied.
- **`admin:message` is ignored.** It is declared in the socket event map (src/types/admin.ts:79), but no listener is registered for it. `Handle` leaves the store unchanged on it.
- **The focused branch is unreachable from the pages shown.** No page sets the store's `selectedChat`. The chats page keeps its own local copy (src/app/dashboard/chats/page.tsx:21).
- **An empty token never opens a socket.** The effect guard tests `!token`, and an empty token string is falsy (`AdminSocket.ShouldConnect`).

## Model

| member | source | states |
|---|---|---|
| AdminStore.SetStats | src/store/adminStore.ts:49 | the dashboard counters become the given ones; nothing else in the store changes |
| AdminStore.SetChats | src/store/adminStore.ts:51 | the summary list is replaced by exactly the given list; nothing else changes |
| AdminStore.SetSelectedChat | src/store/adminStore.ts:53 | the focus becomes exactly the given conversation (or none); nothing else changes |
| AdminStore.AddMessage | src/store/adminStore.ts:55-80 | focused id matches: transcript gains the message as its last element, earlier messages, focus fields and list unchanged; otherwise: every list row with the id gets count + 1, the message as last message and its timestamp, all other rows, the length and the focus unchanged; presence, typing and UI flags never change |
| AdminStore.AddMessageUnknownChat | src/store/adminStore.ts:55-80 | a message whose chat id matches neither the focus nor any list row leaves the whole store unchanged |
| AdminStore.AddMessageRaisesListTotal | src/store/adminStore.ts:67-79 | outside the focus, the sum of list message counts grows by the number of rows carrying the chat id |
| AdminStore.AddMessageFocusedKeepsListTotal | src/store/adminStore.ts:57-64 | while the message's conversation is focused, the list's total message count does not move |
| AdminStore.UpdateChat | src/store/adminStore.ts:82-89 | rows with the id get the patch merged in, other rows and the length are kept; the focus is patched iff its id matches |
| AdminStore.SetActiveSessions | src/store/adminStore.ts:91 | the online list becomes exactly the snapshot, with no merge and no de-duplication |
| AdminStore.AddActiveSession | src/store/adminStore.ts:93-95 | result contains the session, has no duplicates, holds exactly the old sessions plus the new one, is a subsequence of old ++ [s]; it is the de-duplicated old list, extended by s exactly when s was absent; on a duplicate-free list it is the old list if s was present, else old ++ [s] |
| AdminStore.AddActiveSessionKeepsFirstOccurrences | src/store/adminStore.ts:94 | first-occurrence order of `new Set`: the de-duplication of every prefix of the old list is a prefix of the result |
| AdminStore.DuplicateSnapshotKeepsFirstOrder | src/store/adminStore.ts:94 | on the snapshot ["a","b","a"], adding "s" gives ["a","b","s"] |
| AdminStore.AddActiveSessionIdempotent | src/store/adminStore.ts:93-95 | adding the same session twice equals adding it once |
| AdminStore.RemoveActiveSession | src/store/adminStore.ts:97-99 | the session no longer occurs; every other session keeps its multiplicity and relative order; removing an absent session is a no-op |
| AdminStore.RemoveActiveSessionIdempotent | src/store/adminStore.ts:97-99 | removing the same session twice equals removing it once |
| AdminStore.RemoveAfterAdd | src/store/adminStore.ts:93-99 | on a duplicate-free list without s, adding then removing s restores the list |
| AdminStore.SetSidebarOpen | src/store/adminStore.ts:101 | only the sidebar flag changes, to the given value |
| AdminStore.SetDarkMode | src/store/adminStore.ts:103 | only the dark-mode flag changes, to the given value |
| AdminStore.SetUserTyping | src/store/adminStore.ts:105-110 | the session's typing entry becomes the given value; every other key keeps its presence and value |
| AdminStore.ToggleAI | src/store/adminStore.ts:112-119 | rows with the id get `isAIEnabled := enabled`, others and the length unchanged; the focus changes, in that one field, iff its id matches |
| AdminStore.ToggleAIIsUpdateChat | src/store/adminStore.ts:112-119 | toggleAI equals updateChat with the one-field patch `{ isAIEnabled }` |
| AdminStore.ToggleAIIdempotent | src/store/adminStore.ts:112-119 | applying the same AI toggle twice equals applying it once |
| AdminStore.CloseChat | src/store/adminStore.ts:121-128 | rows with the id become inactive, others and the length unchanged; the focus becomes inactive iff its id matches |
| AdminStore.CloseChatIsUpdateChat | src/store/adminStore.ts:121-128 | closeChat equals updateChat with the patch `{ isActive: false }` |
| AdminStore.CloseChatIdempotent | src/store/adminStore.ts:121-128 | closing twice equals closing once |
| AuthStore.Login | src/store/authStore.ts:23-27 | authenticated, with exactly the given profile and token |
| AuthStore.Logout | src/store/authStore.ts:29-33 | not authenticated, no profile, no token, whatever the prior state |
| AuthStore.SetAdmin | src/store/authStore.ts:35 | the profile is replaced; the flag and the token are untouched |
| AuthStore.LogoutAfterLogin | src/store/authStore.ts:19-33 | logout after any login yields exactly the initial state |
| AuthStore.LogoutIdempotent | src/store/authStore.ts:29-33 | logging out twice equals logging out once |
| AdminSocket.Handle | src/hooks/useAdminSocket.ts:35-100 | transport events and `admin:message` leave the store unchanged; `admin:connected` replaces the online list; `user:connected` adds the session; `user:disconnected` removes it and leaves it not typing; both message events apply addMessage; `user:typing` sets the flag; `ai:toggled` applies toggleAI |
| AdminSocket.Disconnected | src/hooks/useAdminSocket.ts:67-71 | after `user:disconnected` the session is no longer online and its typing entry is false; every other session's typing entry keeps its presence and value; the online list is exactly the removal result; conversations, focus, counters and layout flags are untouched |
| AdminSocket.HandleAll | src/hooks/useAdminSocket.ts:35-100 | no stream of socket events changes the dashboard counters, the sidebar flag or the dark-mode flag; a one-event stream is that event's transition |
| AdminSocket.HandleAllAppend | src/hooks/useAdminSocket.ts:35-100 | fold law used to split event streams: delivering a then b equals delivering a ++ b |
| AdminSocket.SnapshotOverridesHistory | src/hooks/useAdminSocket.ts:55-58 | after any stream ending in an `admin:connected` snapshot the online list is exactly that snapshot, and the rest of the store is what the earlier events left |
| AdminSocket.TransportEventsInert | src/hooks/useAdminSocket.ts:35-52 | any stream of connect, disconnect, connect_error and error signals leaves the store exactly as it was |
| AdminSocket.UserAndAiMessagesAgree | src/hooks/useAdminSocket.ts:73-89 | `user:message` and `ai:message` produce the same store for the same message |
| AdminSocket.HandlePresenceStep | src/hooks/useAdminSocket.ts:55-71 | after one event a session is online iff the event's presence rule says so |
| AdminSocket.PresenceFollowsEvents | src/hooks/useAdminSocket.ts:55-71 | over any event stream a session is online iff the last snapshot/connect/disconnect concerning it says so, else iff it was online initially |
| AdminSocket.HandleTypingStep | src/hooks/useAdminSocket.ts:67-83 | after one event a session is typing iff the event's typing rule says so |
| AdminSocket.TypingFollowsEvents | src/hooks/useAdminSocket.ts:67-83 | over any event stream a session is typing iff its last typing signal said so and no disconnect followed; absent keys read as not typing |
| AdminSocket.ConnectThenDisconnect | src/hooks/useAdminSocket.ts:61-71 | connect then disconnect of a new session restores a duplicate-free online list and leaves no typing flag |
| AdminSocket.UnfocusedMessageBumpsList | src/hooks/useAdminSocket.ts:73-79 | with no focus, a user message turns list row c1's count 2 into 3 and makes the message its last message |
| AdminSocket.FocusedMessageSkipsList | src/hooks/useAdminSocket.ts:86-89 | with c1 focused, an AI message extends the transcript while the list row keeps count 2 |
| AdminSocket.ChannelName | src/hooks/useAdminSocket.ts:111-133 | each outbound kind is emitted under its own event name: admin:reply, typing:start, typing:stop, admin:toggle-ai |
| AdminSocket.OutboundRoundTrip | src/hooks/useAdminSocket.ts:111-133 | intents and outbound payloads correspond one-to-one, in both directions |
| AdminSocket.Command | src/hooks/useAdminSocket.ts:111-133 | exactly one emission carrying the intent's payload iff connected; nothing (no queue) when disconnected |
| AdminSocket.ShouldConnect | src/hooks/useAdminSocket.ts:21 | a socket is opened only for an authenticated state with a profile and a token; never for an empty token or the initial state |
| AdminSocket.ConnectionFollowsAuth | src/hooks/useAdminSocket.ts:21 | after login a socket opens iff the token is non-empty; after logout never |
| ActiveChatsView.ActiveChats | src/components/ActiveChats.tsx:61 | exactly the open conversations, with their multiplicities, in original order |
| ActiveChatsView.IsOnline | src/components/ActiveChats.tsx:91 | a session shows online iff it occurs at some index of the online list; never when the list is empty |
| ActiveChatsView.IsUserTyping | src/components/ActiveChats.tsx:92 | a session with no entry reads as not typing; one with an entry reads as that entry's value |
| ActiveChatsView.PreviewOf | src/components/ActiveChats.tsx:133-152 | typing indicator iff typing; else the last message's text iff there is one; else the placeholder |
| ActiveChatsView.RenderPanel | src/components/ActiveChats.tsx:61-161 | online count is the online list's length; one row per open chat in order; a row is online iff its session is in the online list, shows typing iff the session's entry is true; each row's preview is the typing indicator, the last message's text or the placeholder as `PreviewOf` decides for that chat, and it carries the chat's AI flag and message count (lines 120, 126, 144-151); "view all" iff some chat is open |
| ActiveChatsView.CloseChatHidesRow | src/components/ActiveChats.tsx:61 | after closeChat(id) no listed row has that id and every other open chat is still listed |
| ChatsPage.EmptyTermKeepsChats | src/app/dashboard/chats/page.tsx:67-70 | the empty search term keeps every chat |
| ChatsPage.FilteredChats | src/app/dashboard/chats/page.tsx:67-70 | exactly the matching chats (case-insensitive session id, or a defined non-empty IP containing the term), with multiplicities, as an order-preserving subsequence; empty term keeps all |
| ChatsPage.SessionMatchIgnoresCase | src/app/dashboard/chats/page.tsx:68 | the session-id match is unchanged by lower-casing the term or the id |
| ChatsPage.NoIpMatchesBySessionOnly | src/app/dashboard/chats/page.tsx:68-69 | a chat without an IP matches iff its session id does |
| ChatsPage.IpMatchIsCaseSensitive | src/app/dashboard/chats/page.tsx:69 | IP "AB" matches term "AB" but not "ab" |
| ChatsPage.ListPreviewText | src/app/dashboard/chats/page.tsx:150 | the last message's text when it exists and is non-empty, otherwise "No messages yet" |
| ChatsPage.EmptyLastMessageViewsDiffer | src/app/dashboard/chats/page.tsx:150 | for an empty last message the dashboard panel shows empty text but this page shows the placeholder |
| ChatsPage.HandleSendMessage | src/app/dashboard/chats/page.tsx:52-65 | a request is made iff the draft is not all whitespace and a chat is open; it carries the untrimmed draft; the draft clears only on success |
| UsersPage.BrowserOf | src/app/dashboard/users/page.tsx:53-59 | Chrome iff the UA contains "Chrome"; then Firefox, Safari, Edge in that order; Unknown iff none of the four occurs |
| UsersPage.BrowserNameOccurs | src/app/dashboard/users/page.tsx:53-59 | a reported browser's name always occurs in the UA |
| UsersPage.EdgeUserAgentReportsChrome | src/app/dashboard/users/page.tsx:53-57 | a UA naming Chrome, Safari and Edge is reported as Chrome |
| UsersPage.DeviceOf | src/app/dashboard/users/page.tsx:61-65 | Mobile iff "Mobile" occurs; Tablet iff "Tablet" occurs without "Mobile"; otherwise Desktop |
| UsersPage.DeviceNameOccurs | src/app/dashboard/users/page.tsx:61-65 | Mobile or Tablet is reported only when that word occurs in the UA |
| UsersPage.EmptyTermKeepsUsers | src/app/dashboard/users/page.tsx:67-70 | the empty search term keeps every session |
| UsersPage.FilteredUsers | src/app/dashboard/users/page.tsx:67-70 | exactly the sessions whose lower-cased id contains the lower-cased term or whose IP contains the term, with multiplicities, in order; empty term keeps all |
| UsersPage.TotalChats | src/app/dashboard/users/page.tsx:144 | non-negative per-session counts give a non-negative total; sessions without `_count` add nothing (the exact sum follows from `TotalChatsSingleton` and `TotalChatsAppend`) |
| UsersPage.TotalChatsSingleton | src/app/dashboard/users/page.tsx:144 | one session contributes exactly its `_count?.chats || 0`; with `TotalChatsAppend` this fixes the total as the sum over all sessions |
| UsersPage.TotalChatsAppend | src/app/dashboard/users/page.tsx:144 | the total-chats fold over a concatenation is the sum of the two totals |
| UsersPage.FilteredTotalAtMostTotal | src/app/dashboard/users/page.tsx:144 | with non-negative counts, the total over the filtered sessions lies between 0 and the total over all sessions |
| UsersPage.Summarize | src/app/dashboard/users/page.tsx:117-144 | the table never has more rows than the user counter and shows only matching sessions; with the empty search it shows every session and the counters equal the table's size and chat total; with non-negative counts the table's chats lie between 0 and the chat counter |
| UsersPage.SummaryCountersIgnoreSearch | src/app/dashboard/users/page.tsx:117-144 | changing the search term never changes the two counters, which are therefore the session count and the chat total of the whole list |
| SettingsPage.ToggleTwoFactor | src/app/dashboard/settings/page.tsx:340-343 | flips `twoFactorEnabled` and nothing else |
| SettingsPage.ToggleTwoFactorTwice | src/app/dashboard/settings/page.tsx:340-343 | two presses restore the original settings |
| SettingsPage.ToggleNotification | src/app/dashboard/settings/page.tsx:410-413 | flips the clicked notification flag; the other three flags and all other settings are unchanged |
| SettingsPage.ToggleNotificationTwice | src/app/dashboard/settings/page.tsx:410-413 | two presses of the same switch restore the settings |
| SettingsPage.ToggleDarkMode | src/app/dashboard/settings/page.tsx:135-141 | the page's dark-mode flag is negated; the store's flag is set to that same new value; nothing else changes |
| SettingsPage.ToggleDarkModeTwice | src/app/dashboard/settings/page.tsx:135-141 | two toggles restore the page settings and leave the store agreeing with them |
| SettingsPage.ValidatePasswordChange | src/app/dashboard/settings/page.tsx:114-123 | accepted iff new == confirm and length >= 8; a mismatch is reported before any length check |
| SettingsPage.ChangePassword | src/app/dashboard/settings/page.tsx:114-133 | a request (current, new) is made iff the validator accepts; on success all three fields become empty; otherwise the form is kept |
| Text.TrimEmptyIffBlank | src/app/dashboard/chats/page.tsx:53 | a draft trims to the empty string iff every character is ECMAScript whitespace or a line terminator |
| Text.ContainsIffOccurs | src/app/dashboard/chats/page.tsx:68-69 | `includes` holds iff the term occurs at some index |

## Left out

- Socket transport. Connection setup, the `admin:connect` handshake emit, toasts, console logging and the effect's clean-up (src/hooks/useAdminSocket.ts:23-43, 102-107) are I/O and lifecycle. The socket is reduced to its `connected` flag.
- The REST client and its interceptors (src/services/api.ts) are a foreign library. The 401 branch only calls `logout`, which `AuthStore.Logout` models. Every REST outcome the pages react to is a boolean parameter (`apiSucceeded`).
- Persisting the auth store to browser storage (zustand `persist`) is storage, not state logic.
- Not modelled: JSX rendering, animation, routing, `window.location` navigation, and the document class toggling for dark mode.
- The layout, header and sidebar components are presentation only. The header's dark-mode button calls the store's `setDarkMode`, which `AdminStore.SetDarkMode` models.
- Floating-point display arithmetic is left out: number formatting, per-session averages, bar widths and the AI temperature slider.
- Clock and locale functions are left out: "Active Today", relative and locale-formatted times. They depend on the time zone and the clock.
- The "Countries" card (src/app/dashboard/users/page.tsx:158) is a display statistic over IP prefixes, outside the derivations modelled here.
- These pages only fetch and render, or flip booleans in forms: AI settings, activity, dashboard home, login, recent activity.
- Settings form plumbing is left out: profile, session-timeout, language and time-zone inputs, plus loading and saving settings over REST.
- The chats page's local conversation detail reload after a send is a REST fetch.
- Handlers are applied to the state they read. Two toggles pressed within one render (a stale closure) are not modelled.
- `Message.metadata` (untyped) is not represented. Stored messages keep only the `Message` part of the inbound object. The `sessionId`/`chatId` routing fields are dropped.
- ActiveChatsView.IsUserTyping: reads a missing key as not typing. The source's `userTyping` is a plain object, so a session id naming an inherited `Object.prototype` member (`constructor`, `toString`, `__proto__`) reads as truthy there; session ids are assumed not to be such names.
- Text.Lower: folds only the ASCII letters A-Z. JavaScript's `toLowerCase` folds all of Unicode.
- SettingsPage.ValidatePasswordChange: measures the password in Dafny characters. JavaScript's `length` counts UTF-16 code units, so the two differ for characters outside the Basic Multilingual Plane.
- AdminStore.AddMessage: `messageCount` is an unbounded integer. JavaScript numbers lose integer precision above 2^53.

=== FILE: active_chats.dfy ===
/**
 The dashboard's "Active Chats" panel (src/components/ActiveChats.tsx) as a
 pure derivation from the store: which conversations it lists, and for each
 row whether the session shows as online and what preview line it shows.
 Loading the list from the server and the markup are not modelled.
 */
module ActiveChatsView {
  import opened AdminTypes
  import AdminStore
  import Seqs

  /** The conversations the panel lists: those still open, in store order. */
  function ActiveChats(chats: seq<Chat>): (r: seq<Chat>)
    ensures forall i :: 0 <= i < |r| ==> r[i].isActive && r[i] in chats
    ensures forall i :: 0 <= i < |chats| && chats[i].isActive ==> chats[i] in r
    ensures forall c :: multiset(r)[c] == if c.isActive then multiset(chats)[c] else 0
    ensures Seqs.IsSubseq(r, chats)
  {
    var open := (c: Chat) => c.isActive;
    var r := Seqs.Filter(open, chats);
    assert Seqs.IsSubseq(r, chats) by { Seqs.FilterIsSubseq(open, chats); }
    assert forall c :: multiset(r)[c] == if c.isActive then multiset(chats)[c] else 0 by { Seqs.FilterCountAll(open, chats); }
    r
  }

  /** `activeSessions.includes(sessionId)` */
  function IsOnline(activeSessions: seq<string>, sessionId: string): (r: bool)
    ensures r <==> exists i :: 0 <= i < |activeSessions| && activeSessions[i] == sessionId
    ensures activeSessions == [] ==> !r
  {
    sessionId in activeSessions
  }

  /** `userTyping[sessionId]`, where a session with no entry reads as not typing. */
  function IsUserTyping(userTyping: map<string, bool>, sessionId: string): (r: bool)
    ensures sessionId !in userTyping ==> !r
    ensures sessionId in userTyping ==> (r <==> userTyping[sessionId])
  {
    sessionId in userTyping && userTyping[sessionId]
  }

  /** The second line of a row. */
  datatype Preview = TypingIndicator | LastMessageText(content: string) | NoMessagesYet

  /** Typing indicator first, then the last message's text, then the placeholder. */
  function PreviewOf(chat: Chat, typing: bool): (r: Preview)
    ensures r == TypingIndicator <==> typing
    ensures r.LastMessageText? <==> !typing && chat.lastMessage.Some?
    ensures r.LastMessageText? ==> r.content == chat.lastMessage.value.content
    ensures r == NoMessagesYet <==> !typing && chat.lastMessage.None?
  {
    if typing then TypingIndicator
    else if chat.lastMessage.Some? then LastMessageText(chat.lastMessage.value.content)
    else NoMessagesYet
  }

  datatype Row = Row(chatId: string, sessionId: string, online: bool, preview: Preview, aiEnabled: bool, messageCount: int)

  /** What the panel shows: the header's online count, one row per open conversation, and the "View all" link. */
  datatype Panel = Panel(onlineCount: nat, rows: seq<Row>, showViewAll: bool)

  function RowOf(s: AdminStore.State, c: Chat): Row {
    Row(c.id, c.sessionId, IsOnline(s.activeSessions, c.sessionId),
        PreviewOf(c, IsUserTyping(s.userTyping, c.sessionId)), c.isAIEnabled, c.messageCount)
  }

  /** One row per listed conversation, in list order. */
  function RowsOf(s: AdminStore.State, shown: seq<Chat>): (rows: seq<Row>)
    ensures |rows| == |shown|
    ensures forall i :: 0 <= i < |rows| ==>
      && rows[i].chatId == shown[i].id
      && rows[i].sessionId == shown[i].sessionId
      && (rows[i].online <==> shown[i].sessionId in s.activeSessions)
      && (rows[i].preview == TypingIndicator <==> shown[i].sessionId in s.userTyping && s.userTyping[shown[i].sessionId])
      && rows[i].preview == PreviewOf(shown[i], IsUserTyping(s.userTyping, shown[i].sessionId))
      && rows[i].aiEnabled == shown[i].isAIEnabled
      && rows[i].messageCount == shown[i].messageCount
  {
    seq(|shown|, i requires 0 <= i < |shown| => RowOf(s, shown[i]))
  }

  /** Some conversation is open exactly when the panel lists at least one. */
  lemma AnyOpenIffListed(chats: seq<Chat>)
    ensures (exists i :: 0 <= i < |chats| && chats[i].isActive) <==> |ActiveChats(chats)| > 0
  {
    var shown := ActiveChats(chats);
    if i :| 0 <= i < |chats| && chats[i].isActive {
      assert chats[i] in shown;
    }
  }

  function RenderPanel(s: AdminStore.State): (p: Panel)
    ensures p.onlineCount == |s.activeSessions|
    ensures |p.rows| == |ActiveChats(s.chats)|
    ensures forall i :: 0 <= i < |p.rows| ==>
      var c := ActiveChats(s.chats)[i];
      && p.rows[i].chatId == c.id
      && p.rows[i].sessionId == c.sessionId
      && (p.rows[i].online <==> c.sessionId in s.activeSessions)
      && (p.rows[i].preview == TypingIndicator <==> c.sessionId in s.userTyping && s.userTyping[c.sessionId])
      && p.rows[i].preview == PreviewOf(c, IsUserTyping(s.userTyping, c.sessionId))
      && p.rows[i].aiEnabled == c.isAIEnabled
      && p.rows[i].messageCount == c.messageCount
    ensures p.showViewAll <==> exists i :: 0 <= i < |s.chats| && s.chats[i].isActive
  {
    var shown := ActiveChats(s.chats);
    var rows := RowsOf(s, shown);
    assert (|shown| > 0) == (exists i :: 0 <= i < |s.chats| && s.chats[i].isActive) by { AnyOpenIffListed(s.chats); }
    Panel(|s.activeSessions|, rows, |shown| > 0)
  }

  /** After `closeChat(id)` the panel no longer lists any conversation with that id, and the other open ones remain. */
  lemma CloseChatHidesRow(s: AdminStore.State, chatId: string)
    ensures var shown := ActiveChats(AdminStore.CloseChat(s, chatId).chats);
      && (forall i :: 0 <= i < |shown| ==> shown[i].id != chatId)
      && (forall i :: 0 <= i < |s.chats| && s.chats[i].isActive && s.chats[i].id != chatId ==> s.chats[i] in shown)
  {
    var after := AdminStore.CloseChat(s, chatId).chats;
    var shown := ActiveChats(after);
    forall i | 0 <= i < |shown|
      ensures shown[i].id != chatId
    {
      var j :| 0 <= j < |after| && after[j] == shown[i];
    }
    forall i | 0 <= i < |s.chats| && s.chats[i].isActive && s.chats[i].id != chatId
      ensures s.chats[i] in shown
    {
      assert after[i] == s.chats[i];
    }
  }
}

=== FILE: admin_socket.dfy ===
/**
 The operator's real-time channel (src/hooks/useAdminSocket.ts), as pure
 functions: `Handle` maps each inbound socket event onto the store actions its
 listener calls, `HandleAll` folds a delivered event stream, and `Command`
 turns an operator intent into at most one outbound message, only while the
 socket is connected. Opening the socket, the `admin:connect` handshake,
 toasts, logging and listener clean-up are not modelled; the socket is
 reduced to its `connected` flag.
 */
module AdminSocket {
  import opened Wrappers
  import opened AdminTypes
  import opened AdminStore
  import AuthStore
  import ActiveChatsView
  import Seqs

  /** Every inbound event kind of the channel. */
  datatype Event =
    | Connect
    | Disconnect
    | ConnectError(error: string)
    | AdminConnected(activeSessions: seq<string>)
    | UserConnected(sessionId: string, socketId: string, timestamp: string)
    | UserDisconnected(sessionId: string, timestamp: string)
    | UserMessage(message: InboundMessage)
    | UserTyping(sessionId: string, isTyping: bool)
    | AiMessage(message: InboundMessage)
    | AiToggled(chatId: string, enabled: bool)
      /** Declared in the channel's event map but no listener is registered for it. */
    | AdminMessage(message: InboundMessage)
    | SocketError(text: string)

  /** Lifecycle and error signals: they are logged or toasted, never applied to the store. */
  predicate IsTransport(e: Event) {
    e.Connect? || e.Disconnect? || e.ConnectError? || e.SocketError?
  }

  /** `user:disconnected`: the session goes offline and its typing flag is cleared. */
  function Disconnected(s: State, sessionId: string): (r: State)
    ensures sessionId !in r.activeSessions
    ensures sessionId in r.userTyping && !r.userTyping[sessionId]
    ensures r.chats == s.chats && r.selectedChat == s.selectedChat
    ensures r.activeSessions == RemoveActiveSession(s, sessionId).activeSessions
    ensures r.stats == s.stats && r.sidebarOpen == s.sidebarOpen && r.darkMode == s.darkMode
    ensures forall k :: k != sessionId ==> (k in r.userTyping <==> k in s.userTyping)
    ensures forall k :: k != sessionId && k in s.userTyping ==> r.userTyping[k] == s.userTyping[k]
  {
    var removed := RemoveActiveSession(s, sessionId);
    SetUserTyping(removed, sessionId, false)
  }

  /** The store transition one delivered event causes. */
  function Handle(s: State, e: Event): (r: State)
    ensures e.Connect? || e.Disconnect? || e.ConnectError? || e.SocketError? || e.AdminMessage? ==> r == s
    ensures e.AdminConnected? ==> r.activeSessions == e.activeSessions && r.(activeSessions := s.activeSessions) == s
    ensures e.UserConnected? ==> r == AddActiveSession(s, e.sessionId)
    ensures e.UserDisconnected? ==> r == Disconnected(s, e.sessionId)
    ensures e.UserMessage? || e.AiMessage? ==> r == AddMessage(s, e.message)
    ensures e.UserTyping? ==> r == SetUserTyping(s, e.sessionId, e.isTyping)
    ensures e.AiToggled? ==> r == ToggleAI(s, e.chatId, e.enabled)
  {
    match e
    case AdminConnected(sessions) => SetActiveSessions(s, sessions)
    case UserConnected(sessionId, _, _) => AddActiveSession(s, sessionId)
    case UserDisconnected(sessionId, _) => Disconnected(s, sessionId)
    case UserMessage(m) => AddMessage(s, m)
    case UserTyping(sessionId, isTyping) => SetUserTyping(s, sessionId, isTyping)
    case AiMessage(m) => AddMessage(s, m)
    case AiToggled(chatId, enabled) => ToggleAI(s, chatId, enabled)
    case Connect => s
    case Disconnect => s
    case ConnectError(_) => s
    case AdminMessage(_) => s
    case SocketError(_) => s
  }

  /** No socket event touches the dashboard counters or the layout flags. */
  lemma HandleKeepsLayout(s: State, e: Event)
    ensures var r := Handle(s, e);
      r.stats == s.stats && r.sidebarOpen == s.sidebarOpen && r.darkMode == s.darkMode
  {
    match e
    case UserDisconnected(x, _) =>
      var removed := RemoveActiveSession(s, x);
      assert removed.stats == s.stats && removed.sidebarOpen == s.sidebarOpen && removed.darkMode == s.darkMode;
    case _ =>
  }

  /** The store after the events `es` are delivered in order. */
  function HandleAll(s: State, es: seq<Event>): (r: State)
    ensures r.stats == s.stats && r.sidebarOpen == s.sidebarOpen && r.darkMode == s.darkMode
    ensures |es| == 1 ==> r == Handle(s, es[0])
    decreases |es|
  {
    if es == [] then s
    else
      HandleKeepsLayout(s, es[0]);
      assert |es| == 1 ==> es[1..] == [];
      HandleAll(Handle(s, es[0]), es[1..])
  }

  /** Delivering `a` then `b` is delivering `a + b`. */
  lemma {:induction false} HandleAllAppend(s: State, a: seq<Event>, b: seq<Event>)
    ensures HandleAll(s, a + b) == HandleAll(HandleAll(s, a), b)
    decreases |a|
  {
    if a != [] {
      assert (a + b)[0] == a[0];
      assert (a + b)[1..] == a[1..] + b;
      HandleAllAppend(Handle(s, a[0]), a[1..], b);
    } else {
      assert a + b == b;
    }
  }

  /**
   A reconnect snapshot overrides all earlier presence history: whatever was
   delivered before it, the online list afterwards is exactly the snapshot,
   and the rest of the store is what the earlier events left.
   */
  lemma SnapshotOverridesHistory(s: State, es: seq<Event>, snapshot: seq<string>)
    ensures HandleAll(s, es + [AdminConnected(snapshot)]).activeSessions == snapshot
    ensures HandleAll(s, es + [AdminConnected(snapshot)]) == HandleAll(s, es).(activeSessions := snapshot)
  {
    HandleAllAppend(s, es, [AdminConnected(snapshot)]);
  }

  /** A stream of lifecycle and error signals leaves the store exactly as it was. */
  lemma {:induction false} TransportEventsInert(s: State, es: seq<Event>)
    requires forall i :: 0 <= i < |es| ==> IsTransport(es[i])
    ensures HandleAll(s, es) == s
    decreases |es|
  {
    if es != [] {
      TransportEventsInert(s, es[1..]);
    }
  }

  /** `user:message` and `ai:message` go through the one and the same transition. */
  lemma UserAndAiMessagesAgree(s: State, m: InboundMessage)
    ensures Handle(s, UserMessage(m)) == Handle(s, AiMessage(m))
  {
  }

  // ----- Presence and typing over whole event streams -----

  /** Whether `sessionId` is online after one event, given whether it was before. */
  function PresenceStep(online: bool, e: Event, sessionId: string): bool {
    match e
    case AdminConnected(sessions) => sessionId in sessions
    case UserConnected(x, _, _) => if x == sessionId then true else online
    case UserDisconnected(x, _) => if x == sessionId then false else online
    case _ => online
  }

  function OnlineAfter(online: bool, es: seq<Event>, sessionId: string): bool
    decreases |es|
  {
    if es == [] then online else OnlineAfter(PresenceStep(online, es[0], sessionId), es[1..], sessionId)
  }

  /** Whether `sessionId` is typing after one event, given whether it was before. */
  function TypingStep(typing: bool, e: Event, sessionId: string): bool {
    match e
    case UserTyping(x, b) => if x == sessionId then b else typing
    case UserDisconnected(x, _) => if x == sessionId then false else typing
    case _ => typing
  }

  function TypingAfter(typing: bool, es: seq<Event>, sessionId: string): bool
    decreases |es|
  {
    if es == [] then typing else TypingAfter(TypingStep(typing, es[0], sessionId), es[1..], sessionId)
  }

  lemma HandlePresenceStep(s: State, e: Event, sessionId: string)
    ensures sessionId in Handle(s, e).activeSessions <==> PresenceStep(sessionId in s.activeSessions, e, sessionId)
  {
    match e
    case UserConnected(x, _, _) =>
      var added := AddActiveSession(s, x);
      assert Handle(s, e) == added;
      if x != sessionId && sessionId in added.activeSessions {
        var i :| 0 <= i < |added.activeSessions| && added.activeSessions[i] == sessionId;
      }
    case UserDisconnected(x, _) =>
      var removed := RemoveActiveSession(s, x);
      assert Handle(s, e).activeSessions == removed.activeSessions;
      assert multiset(removed.activeSessions)[sessionId] == if sessionId == x then 0 else multiset(s.activeSessions)[sessionId];
    case _ =>
  }

  /**
   Presence is decided by the last presence event about the session: a
   snapshot that lists it or not, its connect, or its disconnect; with none,
   it keeps its initial status.
   */
  lemma {:induction false} PresenceFollowsEvents(s: State, es: seq<Event>, sessionId: string)
    ensures sessionId in HandleAll(s, es).activeSessions <==> OnlineAfter(sessionId in s.activeSessions, es, sessionId)
    decreases |es|
  {
    if es != [] {
      HandlePresenceStep(s, es[0], sessionId);
      PresenceFollowsEvents(Handle(s, es[0]), es[1..], sessionId);
    }
  }

  lemma HandleTypingStep(s: State, e: Event, sessionId: string)
    ensures ActiveChatsView.IsUserTyping(Handle(s, e).userTyping, sessionId)
        <==> TypingStep(ActiveChatsView.IsUserTyping(s.userTyping, sessionId), e, sessionId)
  {
    match e
    case UserDisconnected(x, _) =>
      var removed := RemoveActiveSession(s, x);
      assert removed.userTyping == s.userTyping;
    case _ =>
  }

  /**
   A session is typing exactly when the last typing signal about it said so and
   no disconnect came after it; a session never mentioned keeps its initial
   status, and one absent from the map reads as not typing.
   */
  lemma {:induction false} TypingFollowsEvents(s: State, es: seq<Event>, sessionId: string)
    ensures ActiveChatsView.IsUserTyping(HandleAll(s, es).userTyping, sessionId)
        <==> TypingAfter(ActiveChatsView.IsUserTyping(s.userTyping, sessionId), es, sessionId)
    decreases |es|
  {
    if es != [] {
      HandleTypingStep(s, es[0], sessionId);
      TypingFollowsEvents(Handle(s, es[0]), es[1..], sessionId);
    }
  }

  /** Delivering two events is handling one after the other. */
  lemma HandleAllPair(s: State, a: Event, b: Event)
    ensures HandleAll(s, [a, b]) == Handle(Handle(s, a), b)
  {
    assert [a, b][1..] == [b];
  }

  /** Connect then disconnect is `addActiveSession` followed by the disconnect transition. */
  lemma ConnectThenDisconnectSteps(s: State, sessionId: string, socketId: string, t0: string, t1: string)
    ensures HandleAll(s, [UserConnected(sessionId, socketId, t0), UserDisconnected(sessionId, t1)])
        == Disconnected(AddActiveSession(s, sessionId), sessionId)
  {
    HandleAllPair(s, UserConnected(sessionId, socketId, t0), UserDisconnected(sessionId, t1));
  }

  /**
   A session that connects and then disconnects leaves the online list as it
   was (when the list had no duplicates and did not hold it) and is not typing.
   */
  lemma ConnectThenDisconnect(s: State, sessionId: string, socketId: string, t0: string, t1: string)
    requires Seqs.NoDuplicates(s.activeSessions) && sessionId !in s.activeSessions
    ensures var r := HandleAll(s, [UserConnected(sessionId, socketId, t0), UserDisconnected(sessionId, t1)]);
      && r.activeSessions == s.activeSessions
      && !ActiveChatsView.IsUserTyping(r.userTyping, sessionId)
  {
    ConnectThenDisconnectSteps(s, sessionId, socketId, t0, t1);
    RemoveAfterAdd(s, sessionId);
  }

  // ----- Outbound commands -----

  /** What the operator asks the channel to do. */
  datatype Intent =
    | SendReply(sessionId: string, chatId: string, content: string)
    | StartTyping(sessionId: string, chatId: string)
    | StopTyping(sessionId: string, chatId: string)
    | ToggleChatAI(chatId: string, enabled: bool)

  /** A message emitted on the socket. */
  datatype Outbound =
    | AdminReply(sessionId: string, chatId: string, content: string)
    | TypingStart(sessionId: string, chatId: string)
    | TypingStop(sessionId: string, chatId: string)
    | AdminToggleAi(chatId: string, enabled: bool)

  /** The socket event name each outbound message is emitted under. */
  function ChannelName(o: Outbound): (name: string)
    ensures o.AdminReply? <==> name == "admin:reply"
    ensures o.TypingStart? <==> name == "typing:start"
    ensures o.TypingStop? <==> name == "typing:stop"
    ensures o.AdminToggleAi? <==> name == "admin:toggle-ai"
  {
    match o
    case AdminReply(_, _, _) => "admin:reply"
    case TypingStart(_, _) => "typing:start"
    case TypingStop(_, _) => "typing:stop"
    case AdminToggleAi(_, _) => "admin:toggle-ai"
  }

  /** The payload an intent is emitted with. */
  function ToOutbound(i: Intent): Outbound {
    match i
    case SendReply(sessionId, chatId, content) => AdminReply(sessionId, chatId, content)
    case StartTyping(sessionId, chatId) => TypingStart(sessionId, chatId)
    case StopTyping(sessionId, chatId) => TypingStop(sessionId, chatId)
    case ToggleChatAI(chatId, enabled) => AdminToggleAi(chatId, enabled)
  }

  /** Reads back which intent an outbound message carries. */
  function IntentOf(o: Outbound): Intent {
    match o
    case AdminReply(sessionId, chatId, content) => SendReply(sessionId, chatId, content)
    case TypingStart(sessionId, chatId) => StartTyping(sessionId, chatId)
    case TypingStop(sessionId, chatId) => StopTyping(sessionId, chatId)
    case AdminToggleAi(chatId, enabled) => ToggleChatAI(chatId, enabled)
  }

  /** The payload loses nothing: intents and outbound messages are in one-to-one correspondence. */
  lemma OutboundRoundTrip(i: Intent, o: Outbound)
    ensures IntentOf(ToOutbound(i)) == i
    ensures ToOutbound(IntentOf(o)) == o
  {
  }

  /**
   `sendReply`, `startTyping`, `stopTyping`, `toggleChatAI`: one emission
   carrying the intent's payload when connected, nothing at all otherwise (no
   queue). The store is not an input: no command changes local state.
   */
  function Command(connected: bool, intent: Intent): (r: Option<Outbound>)
    ensures r.Some? <==> connected
    ensures r.Some? ==> IntentOf(r.value) == intent
  {
    if connected then Some(ToOutbound(intent)) else None
  }

  /** The effect's guard: a socket is opened only for a logged-in operator with a profile and a non-empty token. */
  function ShouldConnect(auth: AuthStore.State): (r: bool)
    ensures r ==> auth.isAuthenticated && auth.admin.Some? && auth.token.Some?
    ensures auth.token == Some("") ==> !r
    ensures auth == AuthStore.Initial ==> !r
  {
    auth.isAuthenticated && auth.admin.Some? && auth.token.Some? && auth.token.value != ""
  }

  /** After `login(admin, token)` a socket is opened exactly when the token is non-empty; after `logout` never. */
  lemma ConnectionFollowsAuth(s: AuthStore.State, admin: Admin, token: string)
    ensures ShouldConnect(AuthStore.Login(s, admin, token)) <==> token != ""
    ensures !ShouldConnect(AuthStore.Logout(s))
  {
  }

  // ----- Two end-to-end runs -----

  const SampleSession: UserSessionInfo := UserSessionInfo("s1", None, None, "t0")
  const SampleChat: Chat := Chat("c1", "s1", true, true, 2, None, SampleSession, "t0", "t0")

  /** With no focus, a user message bumps the list row: count 2 becomes 3 and the message becomes the last one. */
  lemma UnfocusedMessageBumpsList(m: Message)
    ensures var r := HandleAll(Initial.(chats := [SampleChat]), [UserMessage(InboundMessage(m, "s1", "c1"))]);
      && r.chats == [SampleChat.(messageCount := 3, lastMessage := Some(m), updatedAt := m.timestamp)]
      && r.selectedChat.None?
  {
    var s := Initial.(chats := [SampleChat]);
    var e := UserMessage(InboundMessage(m, "s1", "c1"));
    assert HandleAll(s, [e]) == Handle(s, e);
  }

  /**
   With "c1" focused, an AI message extends the transcript but leaves the
   list row's count at 2: the two projections are not updated together.
   */
  lemma FocusedMessageSkipsList(m: Message)
    ensures var s := Initial.(chats := [SampleChat], selectedChat := Some(ChatDetails(SampleChat, [], Pagination(1, 50, 0, false))));
      var r := HandleAll(s, [AiMessage(InboundMessage(m, "s1", "c1"))]);
      && r.selectedChat.Some? && r.selectedChat.value.messages == [m]
      && r.chats == [SampleChat]
      && r.chats[0].messageCount == 2
  {
    var s := Initial.(chats := [SampleChat], selectedChat := Some(ChatDetails(SampleChat, [], Pagination(1, 50, 0, false))));
    var e := AiMessage(InboundMessage(m, "s1", "c1"));
    assert HandleAll(s, [e]) == Handle(s, e);
  }
}

=== FILE: admin_store.dfy ===
/**
 The operator console's client-side store (src/store/adminStore.ts): one
 immutable record and a pure transition function per store action.

 The store keeps two projections of the message stream, the summary list
 `chats` and the optional focused conversation `selectedChat`. `AddMessage`
 updates ONE of them: the focused transcript when the message belongs to the
 focused conversation, otherwise the list.
 */
module AdminStore {
  import opened Wrappers
  import opened AdminTypes
  import Seqs

  datatype State = State(
    stats: Option<DashboardStats>,
    chats: seq<Chat>,
    selectedChat: Option<ChatDetails>,
    activeSessions: seq<string>,
    sidebarOpen: bool,
    darkMode: bool,
    userTyping: map<string, bool>)

  /** The store as created: no data, sidebar open, light mode, nobody typing. */
  const Initial: State := State(None, [], None, [], true, false, map[])

  /**
   A `Partial<Chat>`: each present field overrides the chat's own, each absent
   one leaves it alone.
   */
  datatype ChatPatch = ChatPatch(
    id: Option<string>,
    sessionId: Option<string>,
    isActive: Option<bool>,
    isAIEnabled: Option<bool>,
    messageCount: Option<int>,
    lastMessage: Option<Option<Message>>,
    userSession: Option<UserSessionInfo>,
    createdAt: Option<string>,
    updatedAt: Option<string>)

  /** The patch that overrides nothing. */
  const EmptyPatch: ChatPatch := ChatPatch(None, None, None, None, None, None, None, None, None)

  /** `{ ...c, ...p }` */
  function ApplyPatch(c: Chat, p: ChatPatch): Chat {
    Chat(
      p.id.GetOr(c.id),
      p.sessionId.GetOr(c.sessionId),
      p.isActive.GetOr(c.isActive),
      p.isAIEnabled.GetOr(c.isAIEnabled),
      p.messageCount.GetOr(c.messageCount),
      p.lastMessage.GetOr(c.lastMessage),
      p.userSession.GetOr(c.userSession),
      p.createdAt.GetOr(c.createdAt),
      p.updatedAt.GetOr(c.updatedAt))
  }

  /** The focused conversation exists and has id `chatId`. */
  predicate Focused(s: State, chatId: string) {
    s.selectedChat.Some? && s.selectedChat.value.chat.id == chatId
  }

  /** `chats.map(c => c.id === chatId ? f(c) : c)` */
  function MapWhere(chats: seq<Chat>, chatId: string, f: Chat -> Chat): (r: seq<Chat>)
    ensures |r| == |chats|
    ensures forall i :: 0 <= i < |chats| ==> r[i] == if chats[i].id == chatId then f(chats[i]) else chats[i]
  {
    seq(|chats|, i requires 0 <= i < |chats| => if chats[i].id == chatId then f(chats[i]) else chats[i])
  }

  /** The focused conversation with `f` applied to its summary fields, when its id is `chatId`. */
  function MapFocus(sel: Option<ChatDetails>, chatId: string, f: Chat -> Chat): Option<ChatDetails> {
    if sel.Some? && sel.value.chat.id == chatId then Some(sel.value.(chat := f(sel.value.chat))) else sel
  }

  /** A list row after one more message: new last message, count + 1, touched at the message's time. */
  function Bump(c: Chat, m: Message): Chat {
    c.(lastMessage := Some(m), messageCount := c.messageCount + 1, updatedAt := m.timestamp)
  }

  function SetStats(s: State, stats: DashboardStats): (r: State)
    ensures r.stats == Some(stats)
    ensures r.(stats := s.stats) == s
  {
    s.(stats := Some(stats))
  }

  function SetChats(s: State, chats: seq<Chat>): (r: State)
    ensures r.chats == chats
    ensures r.(chats := s.chats) == s
  {
    s.(chats := chats)
  }

  function SetSelectedChat(s: State, chat: Option<ChatDetails>): (r: State)
    ensures r.selectedChat == chat
    ensures r.(selectedChat := s.selectedChat) == s
  {
    s.(selectedChat := chat)
  }

  function SetSidebarOpen(s: State, open: bool): (r: State)
    ensures r.sidebarOpen == open
    ensures r.(sidebarOpen := s.sidebarOpen) == s
  {
    s.(sidebarOpen := open)
  }

  function SetDarkMode(s: State, dark: bool): (r: State)
    ensures r.darkMode == dark
    ensures r.(darkMode := s.darkMode) == s
  {
    s.(darkMode := dark)
  }

  /**
   A message arrives. If it belongs to the focused conversation it is appended
   to the transcript and the summary list is NOT touched; otherwise every list
   row with the message's chat id is bumped and the focus is not touched.
   */
  function AddMessage(s: State, m: InboundMessage): (r: State)
    ensures Focused(s, m.chatId) ==>
      var before := s.selectedChat.value;
      && r.chats == s.chats
      && r.selectedChat.Some?
      && r.selectedChat.value.chat == before.chat
      && r.selectedChat.value.pagination == before.pagination
      && |r.selectedChat.value.messages| == |before.messages| + 1
      && r.selectedChat.value.messages[..|before.messages|] == before.messages
      && r.selectedChat.value.messages[|before.messages|] == m.message
    ensures !Focused(s, m.chatId) ==>
      && r.selectedChat == s.selectedChat
      && |r.chats| == |s.chats|
      && forall i :: 0 <= i < |s.chats| ==>
        if s.chats[i].id == m.chatId then
          && r.chats[i].messageCount == s.chats[i].messageCount + 1
          && r.chats[i].lastMessage == Some(m.message)
          && r.chats[i].updatedAt == m.message.timestamp
          && r.chats[i].(messageCount := s.chats[i].messageCount,
                         lastMessage := s.chats[i].lastMessage,
                         updatedAt := s.chats[i].updatedAt) == s.chats[i]
        else r.chats[i] == s.chats[i]
    ensures r.(chats := s.chats, selectedChat := s.selectedChat) == s
  {
    if Focused(s, m.chatId) then
      var sel := s.selectedChat.value;
      s.(selectedChat := Some(sel.(messages := sel.messages + [m.message])))
    else
      s.(chats := MapWhere(s.chats, m.chatId, c => Bump(c, m.message)))
  }

  /** `updateChat`: merge `p` into every list row with id `chatId`, and into the focus if it has that id. */
  function UpdateChat(s: State, chatId: string, p: ChatPatch): (r: State)
    ensures |r.chats| == |s.chats|
    ensures forall i :: 0 <= i < |s.chats| ==>
      r.chats[i] == if s.chats[i].id == chatId then ApplyPatch(s.chats[i], p) else s.chats[i]
    ensures Focused(s, chatId) ==>
      r.selectedChat == Some(s.selectedChat.value.(chat := ApplyPatch(s.selectedChat.value.chat, p)))
    ensures !Focused(s, chatId) ==> r.selectedChat == s.selectedChat
    ensures r.(chats := s.chats, selectedChat := s.selectedChat) == s
  {
    s.(chats := MapWhere(s.chats, chatId, c => ApplyPatch(c, p)),
       selectedChat := MapFocus(s.selectedChat, chatId, c => ApplyPatch(c, p)))
  }

  /** `toggleAI`: set the AI flag of the conversation `chatId` in the list and in the focus. */
  function ToggleAI(s: State, chatId: string, enabled: bool): (r: State)
    ensures |r.chats| == |s.chats|
    ensures forall i :: 0 <= i < |s.chats| ==>
      if s.chats[i].id == chatId then r.chats[i] == s.chats[i].(isAIEnabled := enabled) && r.chats[i].isAIEnabled == enabled
      else r.chats[i] == s.chats[i]
    ensures Focused(s, chatId) ==>
      && r.selectedChat.Some?
      && r.selectedChat.value.chat.isAIEnabled == enabled
      && r.selectedChat.value.chat.(isAIEnabled := s.selectedChat.value.chat.isAIEnabled) == s.selectedChat.value.chat
      && r.selectedChat.value.messages == s.selectedChat.value.messages
      && r.selectedChat.value.pagination == s.selectedChat.value.pagination
    ensures !Focused(s, chatId) ==> r.selectedChat == s.selectedChat
    ensures r.(chats := s.chats, selectedChat := s.selectedChat) == s
  {
    s.(chats := MapWhere(s.chats, chatId, (c: Chat) => c.(isAIEnabled := enabled)),
       selectedChat := MapFocus(s.selectedChat, chatId, (c: Chat) => c.(isAIEnabled := enabled)))
  }

  /** `closeChat`: mark the conversation `chatId` inactive in the list and in the focus. */
  function CloseChat(s: State, chatId: string): (r: State)
    ensures |r.chats| == |s.chats|
    ensures forall i :: 0 <= i < |s.chats| ==>
      if s.chats[i].id == chatId then r.chats[i] == s.chats[i].(isActive := false) && !r.chats[i].isActive
      else r.chats[i] == s.chats[i]
    ensures Focused(s, chatId) ==>
      && r.selectedChat.Some?
      && !r.selectedChat.value.chat.isActive
      && r.selectedChat.value.chat.(isActive := s.selectedChat.value.chat.isActive) == s.selectedChat.value.chat
      && r.selectedChat.value.messages == s.selectedChat.value.messages
      && r.selectedChat.value.pagination == s.selectedChat.value.pagination
    ensures !Focused(s, chatId) ==> r.selectedChat == s.selectedChat
    ensures r.(chats := s.chats, selectedChat := s.selectedChat) == s
  {
    s.(chats := MapWhere(s.chats, chatId, (c: Chat) => c.(isActive := false)),
       selectedChat := MapFocus(s.selectedChat, chatId, (c: Chat) => c.(isActive := false)))
  }

  /** `setActiveSessions`: the list is replaced by `sessions` verbatim, duplicates and all. */
  function SetActiveSessions(s: State, sessions: seq<string>): (r: State)
    ensures r.activeSessions == sessions
    ensures r.(activeSessions := s.activeSessions) == s
  {
    s.(activeSessions := sessions)
  }

  /**
   `addActiveSession`: `[...new Set([...old, sessionId])]`, the order-preserving
   de-duplication of the old list with the new session appended.
   */
  function AddActiveSession(s: State, sessionId: string): (r: State)
    ensures sessionId in r.activeSessions
    ensures Seqs.NoDuplicates(r.activeSessions)
    ensures forall i :: 0 <= i < |r.activeSessions| ==>
      r.activeSessions[i] in s.activeSessions || r.activeSessions[i] == sessionId
    ensures forall i :: 0 <= i < |s.activeSessions| ==> s.activeSessions[i] in r.activeSessions
    ensures Seqs.IsSubseq(r.activeSessions, s.activeSessions + [sessionId])
    ensures Seqs.NoDuplicates(s.activeSessions) ==>
      r.activeSessions == if sessionId in s.activeSessions then s.activeSessions else s.activeSessions + [sessionId]
    ensures r.activeSessions == Seqs.Dedup(s.activeSessions) + (if sessionId in s.activeSessions then [] else [sessionId])
    ensures r.(activeSessions := s.activeSessions) == s
  {
    var xs := s.activeSessions + [sessionId];
    assert xs[|xs| - 1] == sessionId;
    Seqs.DedupIsSubseq(xs);
    Seqs.DedupAppend(s.activeSessions, sessionId);
    var r := s.(activeSessions := Seqs.Dedup(xs));
    if Seqs.NoDuplicates(s.activeSessions) then
      Seqs.DedupOfNoDuplicates(s.activeSessions);
      r
    else r
  }

  /** `removeActiveSession`: every occurrence of `sessionId` goes, everything else stays in order. */
  function RemoveActiveSession(s: State, sessionId: string): (r: State)
    ensures sessionId !in r.activeSessions
    ensures forall x :: multiset(r.activeSessions)[x] == if x == sessionId then 0 else multiset(s.activeSessions)[x]
    ensures Seqs.IsSubseq(r.activeSessions, s.activeSessions)
    ensures sessionId !in s.activeSessions ==> r == s
    ensures r.(activeSessions := s.activeSessions) == s
  {
    var keep := (x: string) => x != sessionId;
    Seqs.FilterIsSubseq(keep, s.activeSessions);
    Seqs.FilterCountAll(keep, s.activeSessions);
    var r := s.(activeSessions := Seqs.Filter(keep, s.activeSessions));
    if sessionId in s.activeSessions then r
    else
      Seqs.FilterKeepsAll(keep, s.activeSessions);
      r
  }

  /** A session not yet listed is appended after the de-duplicated old list. */
  lemma AddActiveSessionAppends(s: State, sessionId: string)
    requires sessionId !in s.activeSessions
    ensures AddActiveSession(s, sessionId).activeSessions == Seqs.Dedup(s.activeSessions) + [sessionId]
  {
  }

  /**
   `[...new Set(list)]` keeps first occurrences: the de-duplication of every
   prefix of the old list is a prefix of the new list, so on a snapshot with
   duplicates each session stays where it first appeared.
   */
  lemma AddActiveSessionKeepsFirstOccurrences(s: State, sessionId: string)
    ensures forall k :: 0 <= k <= |s.activeSessions| ==>
      Seqs.Dedup(s.activeSessions[..k]) <= AddActiveSession(s, sessionId).activeSessions
  {
    Seqs.DedupAppendKeepsFirstOccurrences(s.activeSessions, sessionId);
  }

  /** A snapshot listing "a" twice: a new session goes after the first "a" and "b", in that order. */
  lemma DuplicateSnapshotKeepsFirstOrder()
    ensures AddActiveSession(Initial.(activeSessions := ["a", "b", "a"]), "s").activeSessions == ["a", "b", "s"]
  {
    var xs := ["a", "b", "a"];
    assert Seqs.Dedup(xs) == ["a", "b"] by {
      assert ["a", "b"] + ["a"] == xs;
      assert Seqs.NoDuplicates(["a", "b"]);
      Seqs.DedupOfNoDuplicates(["a", "b"]);
      Seqs.DedupAppend(["a", "b"], "a");
    }
    AddActiveSessionAppends(Initial.(activeSessions := xs), "s");
  }

  /** `setUserTyping`: last write wins for `sessionId`; every other entry is untouched. */
  function SetUserTyping(s: State, sessionId: string, isTyping: bool): (r: State)
    ensures sessionId in r.userTyping && r.userTyping[sessionId] == isTyping
    ensures forall k :: k != sessionId ==> (k in r.userTyping <==> k in s.userTyping)
    ensures forall k :: k != sessionId && k in s.userTyping ==> r.userTyping[k] == s.userTyping[k]
    ensures r.(userTyping := s.userTyping) == s
  {
    s.(userTyping := s.userTyping[sessionId := isTyping])
  }

  // ----- Properties relating several transitions -----

  /** A message for a conversation that is neither focused nor listed changes nothing. */
  lemma AddMessageUnknownChat(s: State, m: InboundMessage)
    requires !Focused(s, m.chatId)
    requires forall i :: 0 <= i < |s.chats| ==> s.chats[i].id != m.chatId
    ensures AddMessage(s, m) == s
  {
    assert AddMessage(s, m).chats == s.chats;
  }

  /** Sum of the `messageCount` of every list row. */
  function TotalMessageCount(chats: seq<Chat>): int {
    if chats == [] then 0 else chats[0].messageCount + TotalMessageCount(chats[1..])
  }

  /** How many list rows carry the id `chatId`. */
  function RowsWithId(chats: seq<Chat>, chatId: string): nat {
    if chats == [] then 0 else (if chats[0].id == chatId then 1 else 0) + RowsWithId(chats[1..], chatId)
  }

  lemma {:induction false} BumpRaisesTotal(chats: seq<Chat>, m: InboundMessage)
    ensures TotalMessageCount(MapWhere(chats, m.chatId, c => Bump(c, m.message)))
         == TotalMessageCount(chats) + RowsWithId(chats, m.chatId)
    decreases |chats|
  {
    if chats != [] {
      var f := (c: Chat) => Bump(c, m.message);
      BumpRaisesTotal(chats[1..], m);
      assert MapWhere(chats, m.chatId, f)[1..] == MapWhere(chats[1..], m.chatId, f);
    }
  }

  /**
   Outside the focus, the list's total message count grows by one per row that
   carries the message's chat id (by exactly one when ids are unique).
   */
  lemma AddMessageRaisesListTotal(s: State, m: InboundMessage)
    requires !Focused(s, m.chatId)
    ensures TotalMessageCount(AddMessage(s, m).chats) == TotalMessageCount(s.chats) + RowsWithId(s.chats, m.chatId)
  {
    BumpRaisesTotal(s.chats, m);
  }

  /** While the message's conversation is focused, the list's total message count does not move. */
  lemma AddMessageFocusedKeepsListTotal(s: State, m: InboundMessage)
    requires Focused(s, m.chatId)
    ensures TotalMessageCount(AddMessage(s, m).chats) == TotalMessageCount(s.chats)
  {
  }

  /** `toggleAI` is `updateChat` with the one-field patch `{ isAIEnabled }`. */
  lemma ToggleAIIsUpdateChat(s: State, chatId: string, enabled: bool)
    ensures ToggleAI(s, chatId, enabled) == UpdateChat(s, chatId, EmptyPatch.(isAIEnabled := Some(enabled)))
  {
    var p := EmptyPatch.(isAIEnabled := Some(enabled));
    assert ToggleAI(s, chatId, enabled).chats == UpdateChat(s, chatId, p).chats;
  }

  /** `closeChat` is `updateChat` with the one-field patch `{ isActive: false }`. */
  lemma CloseChatIsUpdateChat(s: State, chatId: string)
    ensures CloseChat(s, chatId) == UpdateChat(s, chatId, EmptyPatch.(isActive := Some(false)))
  {
    var p := EmptyPatch.(isActive := Some(false));
    assert CloseChat(s, chatId).chats == UpdateChat(s, chatId, p).chats;
  }

  /** Applying the same AI toggle twice is applying it once. */
  lemma ToggleAIIdempotent(s: State, chatId: string, enabled: bool)
    ensures ToggleAI(ToggleAI(s, chatId, enabled), chatId, enabled) == ToggleAI(s, chatId, enabled)
  {
    var once := ToggleAI(s, chatId, enabled);
    assert ToggleAI(once, chatId, enabled).chats == once.chats;
  }

  /** Closing a conversation twice is closing it once. */
  lemma CloseChatIdempotent(s: State, chatId: string)
    ensures CloseChat(CloseChat(s, chatId), chatId) == CloseChat(s, chatId)
  {
    var once := CloseChat(s, chatId);
    assert CloseChat(once, chatId).chats == once.chats;
  }

  /** Adding the same session twice is adding it once. */
  lemma AddActiveSessionIdempotent(s: State, sessionId: string)
    ensures AddActiveSession(AddActiveSession(s, sessionId), sessionId) == AddActiveSession(s, sessionId)
  {
  }

  /** Removing the same session twice is removing it once. */
  lemma RemoveActiveSessionIdempotent(s: State, sessionId: string)
    ensures RemoveActiveSession(RemoveActiveSession(s, sessionId), sessionId) == RemoveActiveSession(s, sessionId)
  {
  }

  /** Removing a session that was just added to a duplicate-free list that lacked it restores the list. */
  lemma RemoveAfterAdd(s: State, sessionId: string)
    requires Seqs.NoDuplicates(s.activeSessions) && sessionId !in s.activeSessions
    ensures RemoveActiveSession(AddActiveSession(s, sessionId), sessionId).activeSessions == s.activeSessions
  {
    var keep := (x: string) => x != sessionId;
    var added := AddActiveSession(s, sessionId);
    assert added.activeSessions == s.activeSessions + [sessionId];
    Seqs.FilterAppend(keep, s.activeSessions, [sessionId]);
    Seqs.FilterKeepsAll(keep, s.activeSessions);
    assert [sessionId][1..] == [];
    assert Seqs.Filter(keep, [sessionId]) == [];
    assert RemoveActiveSession(added, sessionId).activeSessions == Seqs.Filter(keep, added.activeSessions);
  }
}

=== FILE: admin_types.dfy ===
/**
 The records the operator console exchanges with its server (src/types/admin.ts).
 Timestamps and identifiers are opaque strings; optional fields are `Option`s.
 The free-form `metadata` of a message is not represented.
 */
module AdminTypes {
  import opened Wrappers

  /** An operator account. */
  datatype Admin = Admin(id: string, email: string, name: Option<string>)

  /** Who authored a message: the end user, an operator, or the assistant. */
  datatype Sender = USER | ADMIN | AI

  /** One immutable transcript entry. */
  datatype Message = Message(
    id: string,
    content: string,
    sender: Sender,
    timestamp: string,
    isAI: Option<bool>)

  /**
   A message as it arrives over the socket: the message itself plus the
   session it came from and the conversation it belongs to.
   */
  datatype InboundMessage = InboundMessage(message: Message, sessionId: string, chatId: string)

  /** The end-user browsing context a conversation is attached to. */
  datatype UserSessionInfo = UserSessionInfo(
    sessionId: string,
    ip: Option<string>,
    userAgent: Option<string>,
    createdAt: string)

  /** One row of the conversation summary list. */
  datatype Chat = Chat(
    id: string,
    sessionId: string,
    isActive: bool,
    isAIEnabled: bool,
    messageCount: int,
    lastMessage: Option<Message>,
    userSession: UserSessionInfo,
    createdAt: string,
    updatedAt: string)

  datatype Pagination = Pagination(page: int, limit: int, total: int, hasMore: bool)

  /** A conversation opened for review: its summary fields plus the loaded transcript. */
  datatype ChatDetails = ChatDetails(chat: Chat, messages: seq<Message>, pagination: Pagination)

  /** The dashboard's headline counters, as delivered by the server. */
  datatype DashboardStats = DashboardStats(
    totalSessions: int,
    todaySessions: int,
    totalChats: int,
    activeChats: int,
    totalMessages: int,
    todayMessages: int)
}

=== FILE: auth_store.dfy ===
/**
 The operator's authentication state (src/store/authStore.ts): a three-field
 record with login, logout and profile replacement. Persisting it to browser
 storage is not part of this model.
 */
module AuthStore {
  import opened Wrappers
  import opened AdminTypes

  datatype State = State(isAuthenticated: bool, admin: Option<Admin>, token: Option<string>)

  /** Nobody is logged in. */
  const Initial: State := State(false, None, None)

  /** `login(admin, token)` */
  function Login(s: State, admin: Admin, token: string): (r: State)
    ensures r.isAuthenticated
    ensures r.admin == Some(admin) && r.token == Some(token)
  {
    State(true, Some(admin), Some(token))
  }

  /** `logout()`: every field goes back to its initial value, whatever the state was. */
  function Logout(s: State): (r: State)
    ensures !r.isAuthenticated && r.admin.None? && r.token.None?
  {
    State(false, None, None)
  }

  /** `setAdmin(admin)`: replaces the profile only; the flag and the token are untouched. */
  function SetAdmin(s: State, admin: Admin): (r: State)
    ensures r.admin == Some(admin)
    ensures r.isAuthenticated == s.isAuthenticated && r.token == s.token
  {
    s.(admin := Some(admin))
  }

  /** Logging out after any login gives exactly the state the store starts in. */
  lemma LogoutAfterLogin(s: State, admin: Admin, token: string)
    ensures Logout(Login(s, admin, token)) == Initial
  {
  }

  /** Logging out twice is logging out once. */
  lemma LogoutIdempotent(s: State)
    ensures Logout(Logout(s)) == Logout(s)
  {
  }
}

=== FILE: chats_page.dfy ===
/**
 The "Chat Management" page (src/app/dashboard/chats/page.tsx): the search
 box's filter over the store's conversation list, the list rows' preview
 line, and the guard in front of sending an operator reply. The REST calls
 are external: their outcome is a parameter.
 */
module ChatsPage {
  import opened Wrappers
  import opened AdminTypes
  import opened Text
  import Seqs
  import ActiveChatsView

  /** The session id contains the term, ignoring (ASCII) case. */
  predicate SessionMatches(c: Chat, term: string) {
    Contains(Lower(c.sessionId), Lower(term))
  }

  /** The session has a non-empty IP address that contains the term verbatim (case matters). */
  predicate IpMatches(c: Chat, term: string) {
    c.userSession.ip.Some? && c.userSession.ip.value != "" && Contains(c.userSession.ip.value, term)
  }

  predicate ChatMatches(c: Chat, term: string) {
    SessionMatches(c, term) || IpMatches(c, term)
  }

  function MatchesTerm(term: string): Chat -> bool {
    c => ChatMatches(c, term)
  }

  /** Every chat matches the empty search term. */
  lemma EmptyTermKeepsChats(chats: seq<Chat>)
    ensures Seqs.Filter(MatchesTerm(""), chats) == chats
  {
    forall i | 0 <= i < |chats|
      ensures MatchesTerm("")(chats[i])
    {
      ContainsEmpty(Lower(chats[i].sessionId));
    }
    Seqs.FilterKeepsAll(MatchesTerm(""), chats);
  }

  /** `filteredChats`: the chats that match the search term, in list order. */
  function FilteredChats(chats: seq<Chat>, term: string): (r: seq<Chat>)
    ensures forall i :: 0 <= i < |r| ==> r[i] in chats && ChatMatches(r[i], term)
    ensures forall i :: 0 <= i < |chats| && ChatMatches(chats[i], term) ==> chats[i] in r
    ensures forall c :: multiset(r)[c] == if ChatMatches(c, term) then multiset(chats)[c] else 0
    ensures Seqs.IsSubseq(r, chats)
    ensures term == "" ==> r == chats
  {
    var r := Seqs.Filter(MatchesTerm(term), chats);
    assert Seqs.IsSubseq(r, chats) by { Seqs.FilterIsSubseq(MatchesTerm(term), chats); }
    assert forall c :: multiset(r)[c] == if ChatMatches(c, term) then multiset(chats)[c] else 0 by {
      Seqs.FilterCountAll(MatchesTerm(term), chats);
    }
    assert term == "" ==> r == chats by { EmptyTermKeepsChats(chats); }
    r
  }

  /** The session-id half of the match depends on neither the term's case nor the id's case. */
  lemma SessionMatchIgnoresCase(c: Chat, term: string)
    ensures SessionMatches(c, term) <==> SessionMatches(c, Lower(term))
    ensures SessionMatches(c, term) <==> SessionMatches(c.(sessionId := Lower(c.sessionId)), term)
  {
    LowerIdempotent(term);
    LowerIdempotent(c.sessionId);
  }

  /** A chat whose session has no IP address is found through its session id only. */
  lemma NoIpMatchesBySessionOnly(c: Chat, term: string)
    requires c.userSession.ip.None?
    ensures ChatMatches(c, term) <==> SessionMatches(c, term)
  {
  }

  const IpSampleChat: Chat := Chat("s1", "s1", true, false, 0, None, UserSessionInfo("s1", Some("AB"), None, "t"), "t", "t")

  /** The IP half of the match is case-sensitive: "AB" finds the chat, "ab" does not. */
  lemma IpMatchIsCaseSensitive()
    ensures ChatMatches(IpSampleChat, "AB")
    ensures !ChatMatches(IpSampleChat, "ab")
  {
    assert "AB"[..2] == "AB";
    ContainsIffOccurs("AB", "ab");
    ContainsIffOccurs(Lower("s1"), Lower("ab"));
  }

  /** The second line of a row in this page's list: `lastMessage?.content || 'No messages yet'`. */
  function ListPreviewText(c: Chat): (r: string)
    ensures c.lastMessage.Some? && c.lastMessage.value.content != "" ==> r == c.lastMessage.value.content
    ensures c.lastMessage.None? || c.lastMessage.value.content == "" ==> r == "No messages yet"
  {
    if c.lastMessage.Some? && c.lastMessage.value.content != "" then c.lastMessage.value.content
    else "No messages yet"
  }

  /**
   The two list views disagree on a last message with empty text: the
   dashboard panel shows the empty text, this page shows the placeholder.
   */
  lemma EmptyLastMessageViewsDiffer(c: Chat)
    requires c.lastMessage.Some? && c.lastMessage.value.content == ""
    ensures ActiveChatsView.PreviewOf(c, false) == ActiveChatsView.LastMessageText("")
    ensures ListPreviewText(c) == "No messages yet"
  {
  }

  datatype SendRequest = SendRequest(chatId: string, content: string)

  /** What one press of "send" does: the request made, if any, and the draft left in the box. */
  datatype SendOutcome = SendOutcome(request: Option<SendRequest>, draft: string)

  /**
   `handleSendMessage`: nothing happens for a blank draft or when no chat is
   open; otherwise the draft is sent as typed (untrimmed) and cleared only if
   the request succeeds.
   */
  function HandleSendMessage(draft: string, selected: Option<ChatDetails>, apiSucceeded: bool): (o: SendOutcome)
    ensures o.request.Some? <==> !IsBlank(draft) && selected.Some?
    ensures o.request.Some? ==> o.request.value == SendRequest(selected.value.chat.id, draft)
    ensures o.request.None? ==> o.draft == draft
    ensures o.request.Some? ==> o.draft == if apiSucceeded then "" else draft
  {
    TrimEmptyIffBlank(draft);
    if Trim(draft) == "" || selected.None? then SendOutcome(None, draft)
    else SendOutcome(Some(SendRequest(selected.value.chat.id, draft)), if apiSucceeded then "" else draft)
  }
}

=== FILE: seqs.dfy ===
/**
 Sequence operations shared by the store and the views: the order-preserving
 filter behind every `Array.prototype.filter` of the console, the
 order-preserving de-duplication behind `[...new Set(xs)]`, and the
 subsequence relation both of them are stated against.
 */
module Seqs {

  /** `a` can be obtained from `b` by deleting elements, keeping the order. */
  predicate IsSubseq<T(==)>(a: seq<T>, b: seq<T>)
    decreases |b|
  {
    if a == [] then true
    else if b == [] then false
    else if a[0] == b[0] then IsSubseq(a[1..], b[1..])
    else IsSubseq(a, b[1..])
  }

  /** No element occurs twice. */
  predicate NoDuplicates<T(==)>(xs: seq<T>) {
    forall i, j :: 0 <= i < j < |xs| ==> xs[i] != xs[j]
  }

  /** The elements of `xs` that satisfy `keep`, in their original order. */
  function Filter<T>(keep: T -> bool, xs: seq<T>): (r: seq<T>)
    ensures |r| <= |xs|
    ensures forall i :: 0 <= i < |r| ==> r[i] in xs && keep(r[i])
    ensures forall i :: 0 <= i < |xs| && keep(xs[i]) ==> xs[i] in r
  {
    if xs == [] then []
    else (if keep(xs[0]) then [xs[0]] else []) + Filter(keep, xs[1..])
  }

  /** The first occurrence of every element of `xs`, in order of first appearance. */
  function Dedup<T(==)>(xs: seq<T>): (r: seq<T>)
    ensures NoDuplicates(r)
    ensures forall i :: 0 <= i < |r| ==> r[i] in xs
    ensures forall i :: 0 <= i < |xs| ==> xs[i] in r
    ensures |r| <= |xs|
    decreases |xs|
  {
    if xs == [] then []
    else
      var front := Dedup(xs[..|xs| - 1]);
      var x := xs[|xs| - 1];
      if x in front then front else front + [x]
  }

  lemma {:induction false} FilterIsSubseq<T>(keep: T -> bool, xs: seq<T>)
    ensures IsSubseq(Filter(keep, xs), xs)
    decreases |xs|
  {
    if xs != [] {
      FilterIsSubseq(keep, xs[1..]);
      var rest := Filter(keep, xs[1..]);
      if keep(xs[0]) {
        assert Filter(keep, xs) == [xs[0]] + rest;
        assert ([xs[0]] + rest)[1..] == rest;
      } else {
        assert Filter(keep, xs) == rest;
      }
    }
  }

  /** Every element the filter keeps occurs as often as in `xs`; every element it drops does not occur. */
  lemma {:induction false} FilterCount<T>(keep: T -> bool, xs: seq<T>, y: T)
    ensures multiset(Filter(keep, xs))[y] == if keep(y) then multiset(xs)[y] else 0
    decreases |xs|
  {
    if xs != [] {
      FilterCount(keep, xs[1..], y);
      assert xs == [xs[0]] + xs[1..];
      assert multiset(xs) == multiset([xs[0]]) + multiset(xs[1..]);
      var head := if keep(xs[0]) then [xs[0]] else [];
      assert multiset(Filter(keep, xs)) == multiset(head) + multiset(Filter(keep, xs[1..]));
    }
  }

  /** `FilterCount` for every element at once. */
  lemma FilterCountAll<T>(keep: T -> bool, xs: seq<T>)
    ensures forall y :: multiset(Filter(keep, xs))[y] == if keep(y) then multiset(xs)[y] else 0
  {
    forall y
      ensures multiset(Filter(keep, xs))[y] == if keep(y) then multiset(xs)[y] else 0
    {
      FilterCount(keep, xs, y);
    }
  }

  /** A filter that keeps every element of `xs` returns `xs` itself. */
  lemma {:induction false} FilterKeepsAll<T>(keep: T -> bool, xs: seq<T>)
    requires forall i :: 0 <= i < |xs| ==> keep(xs[i])
    ensures Filter(keep, xs) == xs
    decreases |xs|
  {
    if xs != [] {
      FilterKeepsAll(keep, xs[1..]);
      assert [xs[0]] + xs[1..] == xs;
    }
  }

  /** Filtering distributes over concatenation. */
  lemma {:induction false} FilterAppend<T>(keep: T -> bool, a: seq<T>, b: seq<T>)
    ensures Filter(keep, a + b) == Filter(keep, a) + Filter(keep, b)
    decreases |a|
  {
    if a == [] {
      assert a + b == b;
    } else {
      assert (a + b)[0] == a[0];
      assert (a + b)[1..] == a[1..] + b;
      FilterAppend(keep, a[1..], b);
    }
  }

  /** Filtering twice with the same predicate is filtering once. */
  lemma FilterIdempotent<T>(keep: T -> bool, xs: seq<T>)
    ensures Filter(keep, Filter(keep, xs)) == Filter(keep, xs)
  {
    var r := Filter(keep, xs);
    assert forall i :: 0 <= i < |r| ==> r[i] in r;
    FilterKeepsAll(keep, r);
  }

  lemma {:induction false} SubseqAppendRight<T>(a: seq<T>, b: seq<T>, x: T)
    requires IsSubseq(a, b)
    ensures IsSubseq(a, b + [x])
    decreases |b|
  {
    if a != [] && b != [] {
      assert (b + [x])[0] == b[0];
      assert (b + [x])[1..] == b[1..] + [x];
      if a[0] == b[0] {
        SubseqAppendRight(a[1..], b[1..], x);
      } else {
        SubseqAppendRight(a, b[1..], x);
      }
    }
  }

  lemma {:induction false} SingletonSubseq<T>(x: T, b: seq<T>)
    ensures IsSubseq([x], b + [x])
    decreases |b|
  {
    if b == [] {
      assert [x][1..] == [];
    } else {
      assert (b + [x])[1..] == b[1..] + [x];
      if b[0] == x {
        assert [x][1..] == [];
      } else {
        SingletonSubseq(x, b[1..]);
      }
    }
  }

  lemma {:induction false} SubseqAppendBoth<T>(a: seq<T>, b: seq<T>, x: T)
    requires IsSubseq(a, b)
    ensures IsSubseq(a + [x], b + [x])
    decreases |b|
  {
    if a == [] {
      assert a + [x] == [x];
      SingletonSubseq(x, b);
    } else {
      assert b != [];
      assert (a + [x])[0] == a[0];
      assert (a + [x])[1..] == a[1..] + [x];
      assert (b + [x])[0] == b[0];
      assert (b + [x])[1..] == b[1..] + [x];
      if a[0] == b[0] {
        SubseqAppendBoth(a[1..], b[1..], x);
      } else {
        SubseqAppendBoth(a, b[1..], x);
      }
    }
  }

  /** De-duplication keeps the relative order of the elements it retains. */
  lemma {:induction false} DedupIsSubseq<T>(xs: seq<T>)
    ensures IsSubseq(Dedup(xs), xs)
    decreases |xs|
  {
    if xs != [] {
      var init := xs[..|xs| - 1];
      var x := xs[|xs| - 1];
      assert init + [x] == xs;
      DedupIsSubseq(init);
      if x in Dedup(init) {
        SubseqAppendRight(Dedup(init), init, x);
      } else {
        SubseqAppendBoth(Dedup(init), init, x);
      }
    }
  }

  /** A sequence without duplicates is its own de-duplication. */
  lemma {:induction false} DedupOfNoDuplicates<T>(xs: seq<T>)
    requires NoDuplicates(xs)
    ensures Dedup(xs) == xs
    decreases |xs|
  {
    if xs != [] {
      var init := xs[..|xs| - 1];
      var x := xs[|xs| - 1];
      assert init + [x] == xs;
      assert NoDuplicates(init);
      DedupOfNoDuplicates(init);
      assert x !in init;
    }
  }

  /** De-duplicating `xs + [x]` extends the de-duplication of `xs` by `x` exactly when `x` is new. */
  lemma DedupAppend<T>(xs: seq<T>, x: T)
    ensures Dedup(xs + [x]) == Dedup(xs) + (if x in xs then [] else [x])
  {
    var ys := xs + [x];
    assert ys[..|ys| - 1] == xs;
    if x in Dedup(xs) {
      var i :| 0 <= i < |Dedup(xs)| && Dedup(xs)[i] == x;
    }
  }

  /**
   First-occurrence order: de-duplicating any prefix of `xs` gives a prefix of
   `Dedup(xs)`, so every element sits where it first occurred.
   */
  lemma {:induction false} DedupPrefix<T>(xs: seq<T>, k: nat)
    requires k <= |xs|
    ensures Dedup(xs[..k]) <= Dedup(xs)
    decreases |xs| - k
  {
    if k < |xs| {
      var init := xs[..|xs| - 1];
      assert init + [xs[|xs| - 1]] == xs;
      assert init[..k] == xs[..k];
      DedupPrefix(init, k);
      DedupAppend(init, xs[|xs| - 1]);
    } else {
      assert xs[..k] == xs;
    }
  }

  /** Appending an element never moves the elements already kept: `Dedup(xs[..k])` is a prefix of `Dedup(xs + [x])`. */
  lemma DedupAppendKeepsFirstOccurrences<T>(xs: seq<T>, x: T)
    ensures forall k :: 0 <= k <= |xs| ==> Dedup(xs[..k]) <= Dedup(xs + [x])
  {
    forall k | 0 <= k <= |xs|
      ensures Dedup(xs[..k]) <= Dedup(xs + [x])
    {
      assert (xs + [x])[..k] == xs[..k];
      DedupPrefix(xs + [x], k);
    }
  }
}

=== FILE: settings_page.dfy ===
/**
 The settings page (src/app/dashboard/settings/page.tsx): the
 change-password validator and form reset, and the three toggles
 (two-factor authentication, the notification flags, dark mode). Each
 handler is applied to the settings it reads; the REST calls are external and
 their outcome is a parameter.
 */
module SettingsPage {
  import opened Wrappers
  import AdminStore

  datatype Profile = Profile(name: string, email: string, avatar: string)

  datatype Notifications = Notifications(
    newMessages: bool,
    newUsers: bool,
    systemAlerts: bool,
    emailNotifications: bool)

  datatype Security = Security(twoFactorEnabled: bool, sessionTimeout: int, passwordExpiry: int)

  datatype Appearance = Appearance(darkMode: bool, sidebarCollapsed: bool, language: string, timezone: string)

  datatype Settings = Settings(profile: Profile, notifications: Notifications, security: Security, appearance: Appearance)

  /** What the page shows before the server's settings arrive. */
  const DefaultSettings: Settings := Settings(
    Profile("Admin User", "admin@chatbot.com", ""),
    Notifications(true, true, true, false),
    Security(false, 30, 90),
    Appearance(false, false, "en", "UTC"))

  // ----- Toggles -----

  /** The two-factor switch: flips that one flag. */
  function ToggleTwoFactor(s: Settings): (r: Settings)
    ensures r.security.twoFactorEnabled == !s.security.twoFactorEnabled
    ensures r.security.(twoFactorEnabled := s.security.twoFactorEnabled) == s.security
    ensures r.(security := s.security) == s
  {
    s.(security := s.security.(twoFactorEnabled := !s.security.twoFactorEnabled))
  }

  /** Pressing the two-factor switch twice restores the settings. */
  lemma ToggleTwoFactorTwice(s: Settings)
    ensures ToggleTwoFactor(ToggleTwoFactor(s)) == s
  {
  }

  /** The keys of the notification section, one switch each. */
  datatype NotificationKey = NewMessages | NewUsers | SystemAlerts | EmailNotifications

  function Flag(n: Notifications, k: NotificationKey): bool {
    match k
    case NewMessages => n.newMessages
    case NewUsers => n.newUsers
    case SystemAlerts => n.systemAlerts
    case EmailNotifications => n.emailNotifications
  }

  function WithFlag(n: Notifications, k: NotificationKey, v: bool): Notifications {
    match k
    case NewMessages => n.(newMessages := v)
    case NewUsers => n.(newUsers := v)
    case SystemAlerts => n.(systemAlerts := v)
    case EmailNotifications => n.(emailNotifications := v)
  }

  /** A notification switch: `{ ...notifications, [key]: !value }` with the shown value. */
  function ToggleNotification(s: Settings, key: NotificationKey): (r: Settings)
    ensures Flag(r.notifications, key) == !Flag(s.notifications, key)
    ensures forall k :: k != key ==> Flag(r.notifications, k) == Flag(s.notifications, k)
    ensures r.(notifications := s.notifications) == s
  {
    s.(notifications := WithFlag(s.notifications, key, !Flag(s.notifications, key)))
  }

  /** Pressing the same notification switch twice restores the settings. */
  lemma ToggleNotificationTwice(s: Settings, key: NotificationKey)
    ensures ToggleNotification(ToggleNotification(s, key), key) == s
  {
  }

  /** The page's settings together with the store whose `darkMode` the toggle also sets. */
  datatype DarkModeResult = DarkModeResult(settings: Settings, store: AdminStore.State)

  /**
   `toggleDarkMode`: the new value is the negation of the PAGE's flag, and the
   store's flag is set to that same value, whatever it was before.
   */
  function ToggleDarkMode(s: Settings, store: AdminStore.State): (r: DarkModeResult)
    ensures r.settings.appearance.darkMode == !s.appearance.darkMode
    ensures r.settings.appearance.(darkMode := s.appearance.darkMode) == s.appearance
    ensures r.settings.(appearance := s.appearance) == s
    ensures r.store.darkMode == r.settings.appearance.darkMode
    ensures r.store.(darkMode := store.darkMode) == store
  {
    var dark := !s.appearance.darkMode;
    DarkModeResult(s.(appearance := s.appearance.(darkMode := dark)), AdminStore.SetDarkMode(store, dark))
  }

  /**
   Toggling twice restores the page's settings and leaves the store agreeing
   with them, even when the store disagreed with the page before.
   */
  lemma ToggleDarkModeTwice(s: Settings, store: AdminStore.State)
    ensures var once := ToggleDarkMode(s, store);
      var twice := ToggleDarkMode(once.settings, once.store);
      && twice.settings == s
      && twice.store.darkMode == s.appearance.darkMode
      && twice.store.(darkMode := store.darkMode) == store
  {
  }

  // ----- Changing the password -----

  datatype PasswordForm = PasswordForm(currentPassword: string, newPassword: string, confirmPassword: string)

  const EmptyPasswordForm: PasswordForm := PasswordForm("", "", "")

  const MinPasswordLength: nat := 8

  datatype PasswordError = Mismatch | TooShort

  /** The checks `changePassword` makes before calling the server, in their order: None means accepted. */
  function ValidatePasswordChange(f: PasswordForm): (r: Option<PasswordError>)
    ensures r.None? <==> f.newPassword == f.confirmPassword && |f.newPassword| >= MinPasswordLength
    ensures f.newPassword != f.confirmPassword ==> r == Some(Mismatch)
    ensures r == Some(TooShort) <==> f.newPassword == f.confirmPassword && |f.newPassword| < MinPasswordLength
  {
    if f.newPassword != f.confirmPassword then Some(Mismatch)
    else if |f.newPassword| < MinPasswordLength then Some(TooShort)
    else None
  }

  datatype PasswordRequest = PasswordRequest(currentPassword: string, newPassword: string)

  datatype PasswordOutcome = Rejected(error: PasswordError) | RequestFailed | Changed

  /** One press of "change password": the request made, if any, the outcome, and the form left behind. */
  datatype PasswordAttempt = PasswordAttempt(request: Option<PasswordRequest>, outcome: PasswordOutcome, form: PasswordForm)

  function ChangePassword(f: PasswordForm, apiSucceeded: bool): (a: PasswordAttempt)
    ensures a.request.Some? <==> f.newPassword == f.confirmPassword && |f.newPassword| >= MinPasswordLength
    ensures a.request.Some? ==> a.request.value == PasswordRequest(f.currentPassword, f.newPassword)
    ensures f.newPassword != f.confirmPassword ==> a.outcome == Rejected(Mismatch)
    ensures a.outcome == Rejected(TooShort) <==> f.newPassword == f.confirmPassword && |f.newPassword| < MinPasswordLength
    ensures a.outcome == Changed <==> a.request.Some? && apiSucceeded
    ensures a.outcome == Changed ==> a.form == EmptyPasswordForm
    ensures a.outcome != Changed ==> a.form == f
  {
    match ValidatePasswordChange(f)
    case Some(e) => PasswordAttempt(None, Rejected(e), f)
    case None =>
      var req := PasswordRequest(f.currentPassword, f.newPassword);
      if apiSucceeded then PasswordAttempt(Some(req), Changed, EmptyPasswordForm)
      else PasswordAttempt(Some(req), RequestFailed, f)
  }
}

=== FILE: text.dfy ===
/**
 The three JavaScript string operations the console's search boxes and send
 guard rely on: `toLowerCase` (folding A-Z only), `includes` (substring
 search, where the empty string occurs everywhere) and `trim` (stripping the
 ECMAScript WhiteSpace and LineTerminator code points from both ends).
 */
module Text {

  /** `c` folded to lower case when it is an ASCII capital letter. */
  function LowerChar(c: char): (r: char)
    ensures 'A' <= c <= 'Z' ==> 'a' <= r <= 'z' && r as int - c as int == 32
    ensures !('A' <= c <= 'Z') ==> r == c
  {
    if 'A' <= c <= 'Z' then (c as int + 32) as char else c
  }

  /** `s.toLowerCase()`, restricted to the ASCII letters. */
  function Lower(s: string): (r: string)
    ensures |r| == |s|
    ensures forall i :: 0 <= i < |s| ==> r[i] == LowerChar(s[i])
  {
    seq(|s|, i requires 0 <= i < |s| => LowerChar(s[i]))
  }

  /** Lowering a lowered string changes nothing. */
  lemma LowerIdempotent(s: string)
    ensures Lower(Lower(s)) == Lower(s)
  {
  }

  /** `t` occurs in `s` starting at index `i`. */
  predicate OccursAt(s: string, t: string, i: int) {
    0 <= i && i + |t| <= |s| && s[i..i + |t|] == t
  }

  /** `s.includes(t)`: tries every start position from the left. */
  predicate Contains(s: string, t: string)
    decreases |s|
  {
    (|t| <= |s| && s[..|t|] == t) || (|s| > 0 && Contains(s[1..], t))
  }

  /** `includes` holds exactly when there is a position at which `t` occurs. */
  lemma {:induction false} ContainsIffOccurs(s: string, t: string)
    ensures Contains(s, t) <==> exists i :: OccursAt(s, t, i)
    decreases |s|
  {
    if |s| > 0 {
      ContainsIffOccurs(s[1..], t);
      if |t| <= |s| && s[..|t|] == t {
        assert OccursAt(s, t, 0);
      }
      if Contains(s[1..], t) {
        var i :| OccursAt(s[1..], t, i);
        assert s[i + 1..i + 1 + |t|] == s[1..][i..i + |t|];
        assert OccursAt(s, t, i + 1);
      }
      if i :| OccursAt(s, t, i) {
        if i > 0 {
          assert s[1..][i - 1..i - 1 + |t|] == s[i..i + |t|];
          assert OccursAt(s[1..], t, i - 1);
        } else {
          assert s[..|t|] == s[0..|t|];
        }
      }
    } else {
      if i :| OccursAt(s, t, i) {
        assert s[..|t|] == t;
      }
      if Contains(s, t) {
        assert OccursAt(s, t, 0);
      }
    }
  }

  /** The empty search term is contained in every string. */
  lemma ContainsEmpty(s: string)
    ensures Contains(s, "")
  {
    assert s[..0] == "";
  }

  /** The code points `String.prototype.trim` strips: ECMAScript WhiteSpace and LineTerminator. */
  predicate IsWhitespace(c: char) {
    var n := c as int;
    n == 0x09 || n == 0x0A || n == 0x0B || n == 0x0C || n == 0x0D || n == 0x20
    || n == 0xA0 || n == 0x1680 || (0x2000 <= n <= 0x200A) || n == 0x2028 || n == 0x2029
    || n == 0x202F || n == 0x205F || n == 0x3000 || n == 0xFEFF
  }

  /** Every character of `s` is whitespace (vacuously true of the empty string). */
  predicate IsBlank(s: string) {
    forall i :: 0 <= i < |s| ==> IsWhitespace(s[i])
  }

  /** `s` with its leading whitespace removed. */
  function TrimStart(s: string): (r: string)
    ensures |r| <= |s| && r == s[|s| - |r|..]
    ensures IsBlank(s[..|s| - |r|])
    ensures r == [] || !IsWhitespace(r[0])
    decreases |s|
  {
    if s != [] && IsWhitespace(s[0]) then TrimStart(s[1..]) else s
  }

  /** `s` with its trailing whitespace removed. */
  function TrimEnd(s: string): (r: string)
    ensures |r| <= |s| && r == s[..|r|]
    ensures IsBlank(s[|r|..])
    ensures r == [] || !IsWhitespace(r[|r| - 1])
    decreases |s|
  {
    if s != [] && IsWhitespace(s[|s| - 1]) then
      var init := s[..|s| - 1];
      var r := TrimEnd(init);
      assert s[|r|..] == init[|r|..] + [s[|s| - 1]];
      r
    else s
  }

  /** `s.trim()`. */
  function Trim(s: string): string {
    TrimEnd(TrimStart(s))
  }

  /** A string trims to the empty string exactly when it consists of whitespace only. */
  lemma TrimEmptyIffBlank(s: string)
    ensures Trim(s) == [] <==> IsBlank(s)
  {
    var a := TrimStart(s);
    if Trim(s) == [] {
      assert IsBlank(a[0..]);
      assert a == [];
      assert s[..|s|] == s;
    }
    if IsBlank(s) {
      assert a == [];
    }
  }
}

=== FILE: users_page.dfy ===
/**
 The "User Sessions" page (src/app/dashboard/users/page.tsx): the ordered
 user-agent classifiers, the search filter, and the total-chats counter.
 Date-dependent counters ("Active Today") and the markup are not modelled.
 */
module UsersPage {
  import opened Wrappers
  import opened Text
  import Seqs

  /** Per-session counters; the page reads them through `_count?.`, so they may be missing. */
  datatype Counts = Counts(chats: int, messages: int)

  datatype UserSession = UserSession(
    id: string,
    sessionId: string,
    ip: string,
    userAgent: string,
    createdAt: string,
    updatedAt: string,
    count: Option<Counts>)

  datatype Browser = Chrome | Firefox | Safari | Edge | UnknownBrowser

  /** The label shown for a browser. */
  function BrowserName(b: Browser): string {
    match b
    case Chrome => "Chrome"
    case Firefox => "Firefox"
    case Safari => "Safari"
    case Edge => "Edge"
    case UnknownBrowser => "Unknown"
  }

  /** `getBrowserInfo`: the first of Chrome, Firefox, Safari, Edge whose name the user agent contains. */
  function BrowserOf(userAgent: string): (b: Browser)
    ensures b == Chrome <==> Contains(userAgent, "Chrome")
    ensures b == Firefox <==> !Contains(userAgent, "Chrome") && Contains(userAgent, "Firefox")
    ensures b == Safari <==> !Contains(userAgent, "Chrome") && !Contains(userAgent, "Firefox") && Contains(userAgent, "Safari")
    ensures b == Edge <==> (!Contains(userAgent, "Chrome") && !Contains(userAgent, "Firefox")
                            && !Contains(userAgent, "Safari") && Contains(userAgent, "Edge"))
    ensures b == UnknownBrowser <==> (!Contains(userAgent, "Chrome") && !Contains(userAgent, "Firefox")
                                      && !Contains(userAgent, "Safari") && !Contains(userAgent, "Edge"))
  {
    if Contains(userAgent, "Chrome") then Chrome
    else if Contains(userAgent, "Firefox") then Firefox
    else if Contains(userAgent, "Safari") then Safari
    else if Contains(userAgent, "Edge") then Edge
    else UnknownBrowser
  }

  /** A named browser is only ever reported when its name occurs in the user agent. */
  lemma BrowserNameOccurs(userAgent: string)
    ensures BrowserOf(userAgent) != UnknownBrowser ==> Contains(userAgent, BrowserName(BrowserOf(userAgent)))
  {
  }

  /**
   A Chromium-based Edge user agent names Chrome and Safari as well and is
   reported as Chrome: the order of the checks decides.
   */
  lemma EdgeUserAgentReportsChrome()
    ensures BrowserOf("Chrome/120 Safari/537 Edge/120") == Chrome
  {
    assert "Chrome/120 Safari/537 Edge/120"[..6] == "Chrome";
  }

  datatype Device = Mobile | Tablet | Desktop

  function DeviceName(d: Device): string {
    match d
    case Mobile => "Mobile"
    case Tablet => "Tablet"
    case Desktop => "Desktop"
  }

  /** `getDeviceType`: Mobile wins over Tablet; anything else is Desktop. */
  function DeviceOf(userAgent: string): (d: Device)
    ensures d == Mobile <==> Contains(userAgent, "Mobile")
    ensures d == Tablet <==> !Contains(userAgent, "Mobile") && Contains(userAgent, "Tablet")
    ensures d == Desktop <==> !Contains(userAgent, "Mobile") && !Contains(userAgent, "Tablet")
  {
    if Contains(userAgent, "Mobile") then Mobile
    else if Contains(userAgent, "Tablet") then Tablet
    else Desktop
  }

  /** Mobile and Tablet are only reported when the user agent says so. */
  lemma DeviceNameOccurs(userAgent: string)
    ensures DeviceOf(userAgent) != Desktop ==> Contains(userAgent, DeviceName(DeviceOf(userAgent)))
  {
  }

  /** Case-insensitive match on the session id, or a case-sensitive match on the IP address. */
  predicate UserMatches(u: UserSession, term: string) {
    Contains(Lower(u.sessionId), Lower(term)) || Contains(u.ip, term)
  }

  function MatchesTerm(term: string): UserSession -> bool {
    u => UserMatches(u, term)
  }

  lemma EmptyTermKeepsUsers(users: seq<UserSession>)
    ensures Seqs.Filter(MatchesTerm(""), users) == users
  {
    forall i | 0 <= i < |users|
      ensures MatchesTerm("")(users[i])
    {
      ContainsEmpty(Lower(users[i].sessionId));
    }
    Seqs.FilterKeepsAll(MatchesTerm(""), users);
  }

  /** `filteredUsers`: the sessions that match the search term, in list order. */
  function FilteredUsers(users: seq<UserSession>, term: string): (r: seq<UserSession>)
    ensures forall i :: 0 <= i < |r| ==> r[i] in users && UserMatches(r[i], term)
    ensures forall i :: 0 <= i < |users| && UserMatches(users[i], term) ==> users[i] in r
    ensures forall u :: multiset(r)[u] == if UserMatches(u, term) then multiset(users)[u] else 0
    ensures Seqs.IsSubseq(r, users)
    ensures |r| <= |users|
    ensures term == "" ==> r == users
  {
    var r := Seqs.Filter(MatchesTerm(term), users);
    assert Seqs.IsSubseq(r, users) by { Seqs.FilterIsSubseq(MatchesTerm(term), users); }
    assert forall u :: multiset(r)[u] == if UserMatches(u, term) then multiset(users)[u] else 0 by {
      Seqs.FilterCountAll(MatchesTerm(term), users);
    }
    assert term == "" ==> r == users by { EmptyTermKeepsUsers(users); }
    r
  }

  /** `user._count?.chats || 0` */
  function ChatsOf(u: UserSession): int {
    match u.count
    case Some(c) => c.chats
    case None => 0
  }

  /** The "Total Chats" card: `users.reduce((sum, u) => sum + (u._count?.chats || 0), 0)`. */
  function TotalChats(users: seq<UserSession>): (r: int)
    ensures NonNegativeCounts(users) ==> r >= 0
    ensures (forall i :: 0 <= i < |users| ==> users[i].count.None?) ==> r == 0
    decreases |users|
  {
    if users == [] then 0 else TotalChats(users[..|users| - 1]) + ChatsOf(users[|users| - 1])
  }

  /** A single session contributes exactly its own chat count. */
  lemma TotalChatsSingleton(u: UserSession)
    ensures TotalChats([u]) == ChatsOf(u)
  {
    assert [u][..0] == [];
  }

  /** The total of a concatenation is the sum of the totals. */
  lemma {:induction false} TotalChatsAppend(a: seq<UserSession>, b: seq<UserSession>)
    ensures TotalChats(a + b) == TotalChats(a) + TotalChats(b)
    decreases |b|
  {
    if b == [] {
      assert a + b == a;
    } else {
      var init := b[..|b| - 1];
      assert (a + b)[..|a + b| - 1] == a + init;
      assert (a + b)[|a + b| - 1] == b[|b| - 1];
      TotalChatsAppend(a, init);
    }
  }

  predicate NonNegativeCounts(users: seq<UserSession>) {
    forall i :: 0 <= i < |users| ==> ChatsOf(users[i]) >= 0
  }

  /** With non-negative counters, narrowing the list by a search never raises the total. */
  lemma {:induction false} FilteredTotalAtMostTotal(users: seq<UserSession>, term: string)
    requires NonNegativeCounts(users)
    ensures 0 <= TotalChats(FilteredUsers(users, term)) <= TotalChats(users)
    decreases |users|
  {
    if users != [] {
      var head := users[0];
      var tail := users[1..];
      assert users == [head] + tail;
      assert NonNegativeCounts(tail);
      FilteredTotalAtMostTotal(tail, term);
      TotalChatsAppend([head], tail);
      var kept := if UserMatches(head, term) then [head] else [];
      assert FilteredUsers(users, term) == kept + FilteredUsers(tail, term);
      TotalChatsAppend(kept, FilteredUsers(tail, term));
      assert TotalChats([head]) == ChatsOf(head);
    }
  }

  /** The figures the page header shows: user count, total chats, and the rows of the table. */
  datatype Summary = Summary(totalUsers: nat, totalChats: int, rows: seq<UserSession>)

  /** The counters are taken over every loaded session; only the table follows the search. */
  function Summarize(users: seq<UserSession>, term: string): (r: Summary)
    ensures |r.rows| <= r.totalUsers
    ensures forall i :: 0 <= i < |r.rows| ==> UserMatches(r.rows[i], term)
    ensures term == "" ==> r.rows == users && r.totalUsers == |r.rows| && r.totalChats == TotalChats(r.rows)
    ensures NonNegativeCounts(users) ==> 0 <= TotalChats(r.rows) <= r.totalChats
  {
    var r := Summary(|users|, TotalChats(users), FilteredUsers(users, term));
    if NonNegativeCounts(users) then
      FilteredTotalAtMostTotal(users, term);
      r
    else r
  }

  /** Typing in the search box changes the table but not the counters. */
  lemma SummaryCountersIgnoreSearch(users: seq<UserSession>, term: string, other: string)
    ensures Summarize(users, term).totalUsers == Summarize(users, other).totalUsers
    ensures Summarize(users, term).totalChats == Summarize(users, other).totalChats
    ensures Summarize(users, term).totalUsers == |users|
    ensures Summarize(users, term).totalChats == TotalChats(users)
  {
  }
}

=== FILE: wrappers.dfy ===
/** Optional values: the model's rendering of TypeScript's `T | null` and `T | undefined`. */
module Wrappers {

  datatype Option<+T> = None | Some(value: T) {

    /** Returns the value held in Some, or `default` for None (the `x ?? default` idiom). */
    function GetOr(default: T): T {
      match this
      case Some(v) => v
      case None => default
    }
  }
}
